=== FILE: README.md ===
# VsixTreeViewer core, modelled in Dafny

VsixTreeViewer shows, under each VSIX project in Solution Explorer, the
contents of the `.vsix` archive the last build produced. After a successful
build the root node (`VsixRootNode`) finds the archive in the project's
output directory, unpacks it into a per-archive cache directory under the
temp folder, and rebuilds its one item node (`VsixItemNode`) onto the
unpacked directory. Item nodes mirror directories and files. They create
their children lazily on first expansion and sort them directories first,
then by name ignoring case. They announce changes through property
notifications, and disposal cascades to the children materialised so far.
A source provider (`VsixItemSourceProvider`) attaches the root under VSIX
projects and caches it until the solution closes. `IconMapper` chooses each
node's image.

The model is functional:

- Nodes are immutable records in an id-keyed table (`ItemNode.Tree`), so a
  node keeps its identity across rebuilds. The table also holds the set of
  disposed ids, the next free id, and the log of property notifications
  raised so far.
- The filesystem is a map from paths (lists of segments) to directory or
  file entries. A directory entry carries its listing order.
- A zip archive is an abstract set of members.
- Every operation is a pure transition. An operation that can end in an
  exception returns the state at the point the exception escaped.

Modules, one per source file plus three helpers:

| module | file | models |
|---|---|---|
| `Wrappers` | wrappers.dfy | `Option`, and `Outcome` for returned-or-threw |
| `CaseFold` | case_fold.dfy | ordinal and ordinal-ignore-case comparison, `EndsWith` |
| `FileSystem` | file_system.dfy | paths, `Directory.Exists`, enumeration, recursive delete, zip extraction |
| `ItemNode` | item_node.dfy | `VsixItemNode` |
| `RootNode` | root_node.dfy | `VsixRootNode` |
| `SourceProvider` | source_provider.dfy | `VsixItemSourceProvider` |
| `IconMapper` | icon_mapper.dfy | `IconMapper.GetIcon` |

Behaviour of the code that the model keeps, and that a reader might not
expect:

- `Dispose` marks a node disposed before it disposes the children
  (pre-order). A node that is already disposed is not descended into. So
  children materialised under a node after its disposal stay live when an
  ancestor is disposed later.
- `Rebuild` is not guarded against disposed nodes.
- A root rebuild keeps the item's materialised children.
- `VsixRootNode.Dispose` does nothing, so closing the solution leaves the
  item and its children live.
- A refresh sets `HasItems` to "has at least one child", so an expanded
  empty directory reports no items.
- A failing `Directory.Delete` in the unpack step escapes: only the
  extraction's `IOException` is caught.
- A `FileSystemInfo` caches its write time. A rebuild onto a path that no
  longer exists keeps the old info, so the tooltip shows the time cached
  earlier.

## Model

| member | source | states |
|---|---|---|
| `ItemNode.SetTooltip` | src/MEF/VsixItemNode.cs:180-192 | "compile to see content" exactly when there is no info; last-updated plus the archive's byte size exactly when there is info and the archive path is non-empty and names an existing file; otherwise last-updated; the time is the one the info cached |
| `ItemNode.RebuildNode` | src/MEF/VsixItemNode.cs:48-76 | text is the path's last segment, or ".vsix content" for a null path; an existing directory gives directory info with its current write time, HasItems and not cut; an existing file gives file info with its current write time and not cut, HasItems kept; anything else sets cut and keeps info and HasItems; the tooltip is recomputed only for a non-empty archive path; children are kept |
| `ItemNode.RebuildNotices` | src/MEF/VsixItemNode.cs:48-76 | HasItems is announced exactly when the path is a directory, the tooltip exactly when the archive path is non-empty, Text and IsCut always; Items and IsDisposed never |
| `ItemNode.Rebuild` | src/MEF/VsixItemNode.cs:48-76 | only the rebuilt node changes; the disposed set is untouched, so a disposed node is rebuilt all the same; the log grows by exactly that node's notifications; table validity is kept |
| `ItemNode.TooltipKeepsCachedTime` | src/MEF/VsixItemNode.cs:63-74 | a rebuild onto a vanished path keeps the old info, so the new tooltip shows the time that info cached |
| `ItemNode.RebuildNodeIdempotent` | src/MEF/VsixItemNode.cs:48-76 | rebuilding twice from the same paths gives the node one rebuild gives |
| `ItemNode.NewNode` | src/MEF/VsixItemNode.cs:42-46 | a child constructed for an existing entry is not cut, holds that path, is a directory exactly when the entry is one, reports HasItems exactly for directories, has no tooltip and no children yet |
| `ItemNode.Allocate` | src/MEF/VsixItemNode.cs:42-46 | a constructed node takes the next id, which was free, and the table stays valid |
| `ItemNode.SetIsDisposed` | src/MEF/VsixItemNode.cs:110-121 | the IsDisposed notification is raised exactly when the value changes; setting the current value changes nothing |
| `ItemNode.Dispose` | src/MEF/VsixItemNode.cs:194-211 | the disposed set grows by exactly the live reach of the node: the node when present and live, then recursively the live reach of each child materialised at that moment; node records are untouched; an absent or already disposed node leaves the state unchanged; the log gains exactly one IsDisposed notification per newly disposed node, and a live node's own notification comes first, before any child's |
| `ItemNode.DisposeAll` | src/MEF/VsixItemNode.cs:204-210 | the disposed set grows by exactly the union of the live reaches of the listed children; only disposal happens |
| `ItemNode.ReachClosed` | src/MEF/VsixItemNode.cs:204-210 | whatever a node in the live reach reaches is in the reach too |
| `ItemNode.DisposeIdempotent` | src/MEF/VsixItemNode.cs:196-199 | a second Dispose returns the state the first left, with no further notification |
| `ItemNode.DisposeNotifiesOnce` | src/MEF/VsixItemNode.cs:110-121 | across a Dispose, the number of IsDisposed notifications for a node grows by one if it became disposed and by zero otherwise |
| `ItemNode.CountAppend` | src/MEF/VsixItemNode.cs:118 | notification counts add up over concatenated logs |
| `ItemNode.InsertChild` | src/MEF/VsixItemNode.cs:148-153 | inserting into a sorted sibling list gives a sorted list holding the old ids plus the new one |
| `ItemNode.SortChildren` | src/MEF/VsixItemNode.cs:148-153 | the result is a permutation of the input and is sorted by the sibling order |
| `ItemNode.PrecedesTransitive` | src/MEF/VsixItemNode.cs:150-152 | the sibling comparison is transitive |
| `ItemNode.PrecedesTotal` | src/MEF/VsixItemNode.cs:150-152 | any two siblings are ordered one way or the other |
| `ItemNode.SortedSiblings` | src/MEF/VsixItemNode.cs:148-153 | in a sorted list every directory precedes every file, and within one kind texts are non-decreasing ignoring case |
| `ItemNode.CreatedNodes` | src/MEF/VsixItemNode.cs:141-145 | one node per entry, keyed in entry order from the first free id, each as the constructor builds it |
| `ItemNode.CreateChildren` | src/MEF/VsixItemNode.cs:137-146 | the table gains exactly the new ids, old nodes are unchanged, each new node is built from its entry, and the log only grows |
| `ItemNode.DisposeChildren` | src/MEF/VsixItemNode.cs:130-135 | a null child list becomes empty, an existing one is kept; the disposed set grows by exactly what disposing those children reaches; every child in the list ends disposed; the log gains only IsDisposed notifications, one per newly disposed node |
| `ItemNode.InstallChildren` | src/MEF/VsixItemNode.cs:137-162 | the children become a permutation of the new nodes, in sibling order; HasItems is "has a child"; other nodes are unchanged |
| `ItemNode.InstallChildrenLog` | src/MEF/VsixItemNode.cs:141-162 | installing keeps the old log as a prefix, then appends notifications that name only new nodes and are never IsDisposed, and ends with Items and HasItems for the node |
| `ItemNode.Refresh` | src/MEF/VsixItemNode.cs:128-169 | ends with an exception exactly when the node holds directory info whose directory no longer exists; the disposed set grows by exactly what disposing the previous children reaches; after the exception the child list is the previous one, or empty where it was null, and HasItems is unchanged; otherwise the children are one fresh node per directory entry, as a permutation, sorted, with HasItems telling whether there are any; other node records are unchanged; validity is kept; the old log stays a prefix, a faulted refresh adds only IsDisposed notifications, one per newly disposed node, and a completed one ends with Items and HasItems for the node |
| `ItemNode.RefreshDisposesPrevious` | src/MEF/VsixItemNode.cs:130-135 | the newly disposed nodes are exactly what disposing the previous children reaches; every previous child is disposed; nothing up to the node changes disposal state |
| `ItemNode.RefreshNotifiesDisposalOnce` | src/MEF/VsixItemNode.cs:128-162 | over the whole refresh, each node gets exactly one more IsDisposed notification if the refresh disposed it and none otherwise |
| `ItemNode.RefreshKeepsDisplay` | src/MEF/VsixItemNode.cs:128-163 | text, info, cut state and tooltip of the node are unchanged |
| `ItemNode.RefreshOfLeafIsEmpty` | src/MEF/VsixItemNode.cs:139-159 | a file or placeholder node gets an empty child list and reports no items |
| `ItemNode.Items` | src/MEF/VsixItemNode.cs:81-92 | existing children are returned with the state unchanged; null children are materialised by Refresh |
| `ItemNode.ItemsStable` | src/MEF/VsixItemNode.cs:81-92 | once Items produced children, reading again returns them and changes nothing, whatever the filesystem now holds |
| `ItemNode.GetPattern` | src/MEF/VsixItemNode.cs:215-238 | a live node returns itself exactly for the five supported patterns; a disposed node only for the disposal-notification pattern |
| `ItemNode.DisposeNarrowsPatterns` | src/MEF/VsixItemNode.cs:215-238 | after Dispose the node, each of its materialised children and every node the disposal reaches answer the disposal-notification pattern only |
| `ItemNode.CompareTo` | src/MEF/VsixItemNode.cs:175-178 | zero exactly for texts equal ignoring case, and zero against anything that is not a display item |
| `ItemNode.CompareToFlips` | src/MEF/VsixItemNode.cs:175-178 | swapping the operands negates the result |
| `ItemNode.CompareToAgreesWithSiblingOrder` | src/MEF/VsixItemNode.cs:148-153 | CompareTo agrees with the order Refresh gives siblings of one kind |
| `CaseFold.CompareOrdinal` | src/MEF/VsixItemNode.cs:151 | the result is -1, 0 or 1, and zero exactly for equal strings |
| `CaseFold.CompareOrdinalFlips` | src/MEF/VsixItemNode.cs:151 | the ordinal comparison is antisymmetric |
| `CaseFold.CompareOrdinalTransitive` | src/MEF/VsixItemNode.cs:151 | the ordinal comparison is transitive |
| `FileSystem.EnumerateNames` | src/MEF/VsixItemNode.cs:141 | every path yielded exists, is an immediate entry of the directory and is listed; every listed name that exists is yielded |
| `FileSystem.DeleteTree` | src/MEF/VsixRootNode.cs:102-105 | the directory and everything beneath it are removed; everything else is kept |
| `FileSystem.Extract` | src/MEF/VsixRootNode.cs:109 | the target becomes a directory listing the archive's top level, every member is written beneath it, and nothing outside it changes |
| `FileSystem.ExtractExact` | src/MEF/VsixRootNode.cs:102-110 | extracting into a cleared target leaves beneath it exactly the target and the archive's members |
| `FileSystem.FullNameEndsWith` | src/IconMapper.cs:38 | a path whose last segment ends with a suffix has a full name ending with it |
| `IconMapper.LastDot` | src/IconMapper.cs:23 | the index found holds a '.' and no later character does; none is found only when there is no '.' |
| `IconMapper.Extension` | src/IconMapper.cs:23 | a non-empty extension starts with '.', is a suffix of the name and holds no other '.'; it is empty exactly when the name has no '.' or ends with one |
| `IconMapper.ExtensionIsVsix` | src/IconMapper.cs:21-26 | the extension equals ".vsix" ignoring case exactly when the file name ends with ".vsix" ignoring case |
| `IconMapper.GetIcon` | src/IconMapper.cs:12-41 | null info gives Extension; a .vsix file gives Extension; another file gives the service's moniker when its id is non-negative and Document otherwise; a directory whose full name ends with ".vsix" gives Extension, other directories FolderOpened or FolderClosed |
| `IconMapper.IconIgnoresOpenUnlessFolder` | src/IconMapper.cs:38-40 | the expanded and collapsed icons differ exactly for directories that are not unpacked archives |
| `IconMapper.ServiceOnlyForFiles` | src/IconMapper.cs:28-35 | for anything but a non-archive file the icon is a known moniker, whatever the service answers |
| `IconMapper.ArchiveDirectoryIcon` | src/IconMapper.cs:38-40 | a directory named like an archive, such as the extraction directory, shows the Extension icon |
| `RootNode.NewRoot` | src/MEF/VsixRootNode.cs:20-31 | the default name is the project name plus ".vsix"; the item is a fresh, live, unexpanded node built from that name with the "root" marker; no other node changes |
| `RootNode.NewRootPlaceholder` | src/MEF/VsixRootNode.cs:24-25 | when nothing exists at the default-name path, the item is cut, has no info, no items, and its tooltip asks for a build |
| `RootNode.OnBuildProjConfigDone` | src/MEF/VsixRootNode.cs:33-39 | a rebuild is requested exactly when the build succeeded and the reported project is a textual tail of the tracked project's full name |
| `RootNode.BuildFilterMatchesSuffix` | src/MEF/VsixRootNode.cs:35 | a build of "Foo.csproj" requests a rebuild of the root tracking "C:\MyFoo.csproj" |
| `RootNode.FailedBuildIgnored` | src/MEF/VsixRootNode.cs:35 | a failed build never requests a rebuild |
| `RootNode.FindProject` | src/MEF/VsixRootNode.cs:72-76 | a project found is in the solution and has the tracked path; none is found only when no project has it |
| `RootNode.FirstVsix` | src/MEF/VsixRootNode.cs:83 | the result is an existing file whose name ends with ".vsix" ignoring case and no such file comes before it; none is found only when there is no such file |
| `RootNode.GetVsixPath` | src/MEF/VsixRootNode.cs:68-87 | null when the project is not in the solution or its output directory is missing; otherwise the first .vsix file at the top of the output directory |
| `RootNode.GetVsixPathLocation` | src/MEF/VsixRootNode.cs:78-83 | the archive found is an immediate entry of the existing output directory |
| `RootNode.GetVsixPathFindsArchive` | src/MEF/VsixRootNode.cs:78-83 | an archive is found whenever the output directory holds a .vsix file at its top level |
| `RootNode.Target` | src/MEF/VsixRootNode.cs:100 | the extraction directory lies under the temp path and is named after the archive |
| `RootNode.UnpackVsix` | src/MEF/VsixRootNode.cs:93-117 | a missing archive gives null and touches nothing; the target is returned exactly when the archive exists, the old target could be deleted, no file blocks it and extraction succeeds; an exception escapes exactly when the archive exists and either the delete of an existing target fails or extraction fails with an error other than an IO error, which happens whether or not a file blocks the target, because the archive is opened first; nothing outside the target changes |
| `RootNode.ClearedTarget` | src/MEF/VsixRootNode.cs:102-105 | after the delete step nothing lies beneath the target |
| `RootNode.UnpackIsExact` | src/MEF/VsixRootNode.cs:102-111 | when the archive exists and no file blocks the target, the target afterwards holds exactly the archive: the directory and its members, nothing older |
| `RootNode.UnpackForgetsPrevious` | src/MEF/VsixRootNode.cs:102-111 | for two filesystems that agree outside the target, unpacking the same archive leaves identical filesystems: nothing the cache held before survives |
| `RootNode.UnpackSucceeds` | src/MEF/VsixRootNode.cs:107-111 | an existing archive with nothing blocking its target unpacks, and the archive itself is untouched |
| `RootNode.RebuildRoot` | src/MEF/VsixRootNode.cs:41-66 | no archive rebuilds the item to the default name and "root"; an archive that unpacks rebuilds it to the unpacked directory and the archive; an archive that does not unpack leaves the table as it was; no node changes disposal state and the item keeps its children |
| `RootNode.RebuildShowsArchive` | src/MEF/VsixRootNode.cs:50-57 | after unpacking, the item is a directory node that is not cut, keeps its disposal state (a live item stays live), is named after the archive, its tooltip gives the extraction time and the archive's size, and a refresh of it enumerates exactly the archive's top level; an item already expanded keeps its old children, which Items returns unchanged |
| `RootNode.PlaceholderRebuildIdempotent` | src/MEF/VsixRootNode.cs:59-63 | with no archive, a second rebuild leaves the item as the first did |
| `RootNode.RootItems` | src/MEF/VsixRootNode.cs:91 | Items is exactly the one owned item |
| `RootNode.RootHasItems` | src/MEF/VsixRootNode.cs:90 | HasItems holds, as Items is never empty |
| `RootNode.RootKeepsItem` | src/MEF/VsixRootNode.cs:126-129 | rebuilds never replace the item, and disposing the root leaves its disposal state unchanged |
| `SourceProvider.IsVsixProject` | src/MEF/VsixItemSourceProvider.cs:57-82 | true only for a project that is not a solution folder, whose queries do not throw and whose project directory holds source.extension.vsixmanifest |
| `SourceProvider.CreateCollectionSource` | src/MEF/VsixItemSourceProvider.cs:30-47 | other relationships give null; a VSIX project gets the cached root, or a new root tracking it when none is cached; an item node is its own source; anything else gives null |
| `SourceProvider.OnBeforeCloseSolution` | src/MEF/VsixItemSourceProvider.cs:24-28 | the cache ends empty, and the table is what the root's Dispose leaves |
| `SourceProvider.GetRelationships` | src/MEF/VsixItemSourceProvider.cs:49-55 | one Contains exactly for VSIX projects, nothing otherwise |
| `SourceProvider.RelationshipsMatchSources` | src/MEF/VsixItemSourceProvider.cs:30-55 | a Contains request gets a source exactly for items that are offered Contains or are nodes |
| `SourceProvider.CachedRootIsStable` | src/MEF/VsixItemSourceProvider.cs:36-39 | a repeated request returns the same root and changes nothing |
| `SourceProvider.CloseThenFreshRoot` | src/MEF/VsixItemSourceProvider.cs:24-38 | after close the next request builds a new root whose item did not exist before |
| `SourceProvider.CloseDisposesNothing` | src/MEF/VsixItemSourceProvider.cs:24-28 | closing the solution changes no node's disposal state |
| `SourceProvider.SecondProjectGetsFirstRoot` | src/MEF/VsixItemSourceProvider.cs:38 | a second VSIX project is answered with the root tracking the first |
| `SourceProvider.CreateCollectionSourcePerProject` | src/MEF/VsixItemSourceProvider.cs:36-39 | with one cache entry per project, a VSIX project always gets a root tracking itself, built once and then reused |
| `SourceProvider.ProjectsGetOwnRoots` | src/MEF/VsixItemSourceProvider.cs:36-39 | with one cache entry per project, two VSIX projects get two different roots, each tracking its own project |

## Left out

- Threading is not modelled: `StartOnIdle`, main-thread switches, `TaskScheduler.Default` and `FireAndForget`. A rebuild is one sequential step. An exception that `FireAndForget` would swallow is an `Outcome.Threw`.
- The `Debouncer` is not modelled: its timers are concurrency. A requested rebuild is the boolean `RootNode.OnBuildProjConfigDone` returns. The constructor's request is the caller running `RootNode.RebuildRoot`.
- DTE, project configuration and hierarchy APIs are not modelled. Their answers are inputs: `RootNode.Project` and `SourceProvider.HierarchyItem`.
- `Vsix.Name`, a constant generated from the extension manifest, is a parameter, as is the temp path.
- The image service is not modelled. Its answer is a parameter of `IconMapper.GetIcon`.
- WPF font, priority and moniker getters are not modelled, nor `CancelLoad` and `GetBrowseObject`. They are constant, or they forward to `GetIcon`.
- Timestamp formatting in tooltips is not modelled. A tooltip records the cached write time and the size it would print.
- `PropertyChanged` subscribers are not modelled. Notifications are kept as a log of (node, property) pairs.
- src/MEF/VsixItemInvocationController.cs and src/VsixTreeViewerPackage.cs are not part of this model: one opens editors, the other registers the package.
- CaseFold: only ASCII letters are folded. .NET's OrdinalIgnoreCase also folds other scripts.
- CaseFold.CompareOrdinal: compares Unicode scalar values, while .NET compares UTF-16 code units. The orders differ when a character above U+FFFF meets one from U+E000 to U+FFFF. For example, "😀.txt" sorts after "１.txt" in the model and before it in .NET. File names with unpaired surrogates cannot be represented.
- RootNode.OnBuildProjConfigDone: `String.EndsWith(string)` is culture-sensitive; the model compares ordinally.
- FileSystem: paths are compared segment by segment and case-sensitively. Windows compares paths ignoring case.
- RootNode.NewRoot: the default name `<Name>.vsix` and the `"root"` marker are relative paths, which `Directory.Exists` and `File.Exists` resolve against the process's working directory. The model has no working directory and looks them up as one-segment paths `[defaultName]` and `["root"]`.
- CaseFold.CompareOrdinal and ItemNode.CompareTo: return -1, 0 or 1. `String.CompareOrdinal` and `StringComparer.OrdinalIgnoreCase.Compare` return a signed difference of any size. Every caller uses only the sign.
- FileSystem.Enumerate: entries come in the order the directory's listing gives.
- ItemNode.SortChildren: `List.Sort` is not stable. Among siblings of one kind whose names are equal ignoring case, the model fixes one order the sort may produce. The contract states only what every run produces: a permutation that is sorted.
- ItemNode.Refresh: the sort comparator would throw on a child without info. This cannot happen here, because enumeration and construction see the same filesystem.
- RootNode.UnpackVsix: a failed delete, and a failed or interrupted extraction, leave the filesystem as it was before that step. Partial contents are not modelled.
- RootNode.UnpackVsix: `ExtractToDirectory` creates missing parent directories of the target. The model adds only the target.
- RootNode.BinDir: an absolute OutputPath replaces the project directory in `Path.Combine`. The model always appends.
- RootNode.UnpackIsExact and RootNode.UnpackForgetsPrevious assume the cache directory has no entries beneath it unless it exists itself (`FileSystem.NoOrphansBeneath`). Every real filesystem has this property.

## Findings

| source | as written | input that shows it | evidently intended | confidence | as-written member | corrected member |
|---|---|---|---|---|---|---|
| src/MEF/VsixItemSourceProvider.cs:38 | `_rootNode ??= new VsixRootNode(hierarchyItem)` caches one root for the whole provider | a solution with two VSIX projects A and B: expanding A, then B | each VSIX project shows its own archive, so B gets a root tracking B | medium, not executed | `SourceProvider.SecondProjectGetsFirstRoot` | `SourceProvider.CreateCollectionSourcePerProject` |

=== FILE: case_fold.dfy ===
/** Ordinal string comparison and its ignore-case variant, after .NET's
    StringComparer.Ordinal and StringComparer.OrdinalIgnoreCase. Characters
    here are Unicode scalar values and are compared as such, after
    upper-casing for the ignore-case variant. .NET compares UTF-16 code
    units instead, which gives the same order except where a character above
    U+FFFF meets one from U+E000 to U+FFFF. Only ASCII letters are
    case-folded here. */
module CaseFold {

  /** Upper-case mapping of one character (ASCII letters only). */
  function Upper(c: char): char {
    if 'a' <= c <= 'z' then (c as int - 32) as char else c
  }

  /** A string with every character upper-cased. */
  function Fold(s: string): string {
    seq(|s|, i requires 0 <= i < |s| => Upper(s[i]))
  }

  /** Lexicographic comparison by scalar value: the sign of String.CompareOrdinal
      for strings without characters above U+FFFF. */
  function CompareOrdinal(a: string, b: string): (r: int)
    ensures -1 <= r <= 1
    ensures r == 0 <==> a == b
  {
    if a == [] then (if b == [] then 0 else -1)
    else if b == [] then 1
    else if a[0] < b[0] then -1
    else if a[0] > b[0] then 1
    else CompareOrdinal(a[1..], b[1..])
  }

  /** The sign of StringComparer.OrdinalIgnoreCase.Compare. */
  function CompareIgnoreCase(a: string, b: string): int {
    CompareOrdinal(Fold(a), Fold(b))
  }

  /** String.Equals(a, b, StringComparison.OrdinalIgnoreCase). */
  predicate EqualsIgnoreCase(a: string, b: string) {
    Fold(a) == Fold(b)
  }

  /** String.EndsWith with ordinal comparison. */
  predicate EndsWith(s: string, suffix: string) {
    |suffix| <= |s| && s[|s| - |suffix|..] == suffix
  }

  /** String.EndsWith(suffix, StringComparison.OrdinalIgnoreCase). */
  predicate EndsWithIgnoreCase(s: string, suffix: string) {
    EndsWith(Fold(s), Fold(suffix))
  }

  /** Swapping the operands negates the comparison. */
  lemma {:induction false} CompareOrdinalFlips(a: string, b: string)
    ensures CompareOrdinal(a, b) == -CompareOrdinal(b, a)
  {
    if a != [] && b != [] && a[0] == b[0] {
      CompareOrdinalFlips(a[1..], b[1..]);
    }
  }

  /** The ordinal order is transitive. */
  lemma {:induction false} CompareOrdinalTransitive(a: string, b: string, c: string)
    requires CompareOrdinal(a, b) <= 0 && CompareOrdinal(b, c) <= 0
    ensures CompareOrdinal(a, c) <= 0
  {
    if a != [] && b != [] && c != [] && a[0] == b[0] && b[0] == c[0] {
      CompareOrdinalTransitive(a[1..], b[1..], c[1..]);
    }
  }

  /** Folding commutes with taking a suffix. */
  lemma FoldSuffix(s: string, k: nat)
    requires k <= |s|
    ensures Fold(s[k..]) == Fold(s)[k..]
  {
  }

  /** Folding distributes over concatenation. */
  lemma FoldAppend(a: string, b: string)
    ensures Fold(a + b) == Fold(a) + Fold(b)
  {
  }

  /** A suffix of the tail is a suffix of the whole, up to case too. */
  lemma EndsWithIgnoreCaseAppend(a: string, b: string, suffix: string)
    requires EndsWithIgnoreCase(b, suffix)
    ensures EndsWithIgnoreCase(a + b, suffix)
  {
    FoldAppend(a, b);
    var fb := Fold(b);
    var k := |Fold(suffix)|;
    assert (Fold(a) + fb)[|Fold(a) + fb| - k..] == fb[|fb| - k..];
  }

  /** `suffix` is what is left of `s` after dropping some prefix. */
  ghost predicate IsTail(s: string, suffix: string) {
    exists k :: 0 <= k <= |s| && s[k..] == suffix
  }

  /** EndsWith holds exactly when the suffix is some tail of the string. */
  lemma EndsWithTail(s: string, suffix: string)
    ensures EndsWith(s, suffix) <==> IsTail(s, suffix)
  {
    if EndsWith(s, suffix) {
      assert s[|s| - |suffix|..] == suffix;
    }
  }
}

=== FILE: file_system.dfy ===
/** An abstract filesystem: a map from paths to directory or file entries.
    Directories carry the order in which the operating system enumerates
    their entries; files carry their byte size. */
module FileSystem {
  import opened Wrappers
  import opened CaseFold

  /** A path as its list of segments. Path.GetFileName is the last segment,
      Path.Combine appends segments. */
  type Path = seq<string>

  /** An opaque last-write timestamp. */
  type Time = int

  /** What FileSystemInfo.LastWriteTime reports for a path that does not
      exist: the file-time epoch. */
  const MissingTime: Time := 0

  datatype Entry =
    | Dir(modified: Time, listing: seq<string>)
    | File(modified: Time, size: nat)

  type Fs = map<Path, Entry>

  /** Path.GetFileName. */
  function FileName(p: Path): string {
    if p == [] then "" else p[|p| - 1]
  }

  /** The extension of a packaged archive. */
  const VsixExtension: string := ".vsix"

  /** The directory separator FileSystemInfo.FullName writes between segments. */
  const Separator: char := '\\'

  /** FileSystemInfo.FullName: the segments joined by the separator. */
  function FullName(p: Path): (r: string)
    ensures p != [] ==> EndsWith(r, FileName(p))
    decreases |p|
  {
    if p == [] then ""
    else if |p| == 1 then p[0]
    else FullName(p[..|p| - 1]) + [Separator] + p[|p| - 1]
  }

  /** Path.GetDirectoryName: the path without its last segment. */
  function DirectoryName(p: Path): (r: Path)
    ensures p != [] ==> r + [FileName(p)] == p
  {
    if p == [] then [] else p[..|p| - 1]
  }

  /** A name that ends with `suffix` gives a full name that ends with it. */
  lemma FullNameEndsWith(p: Path, suffix: string)
    requires p != [] && EndsWithIgnoreCase(FileName(p), suffix)
    ensures EndsWithIgnoreCase(FullName(p), suffix)
  {
    if |p| > 1 {
      EndsWithIgnoreCaseAppend(FullName(p[..|p| - 1]) + [Separator], p[|p| - 1], suffix);
    }
  }

  /** String.IsNullOrEmpty on a path. */
  predicate IsNullOrEmpty(p: Option<Path>) {
    p.None? || p.value == []
  }

  /** Directory.Exists; false for a null path. */
  predicate DirExists(fs: Fs, p: Option<Path>) {
    p.Some? && p.value in fs && fs[p.value].Dir?
  }

  /** File.Exists; false for a null path. */
  predicate FileExists(fs: Fs, p: Option<Path>) {
    p.Some? && p.value in fs && fs[p.value].File?
  }

  /** FileSystemInfo.LastWriteTime. */
  function LastWriteTime(fs: Fs, p: Path): Time {
    if p in fs then fs[p].modified else MissingTime
  }

  /** `p` is an immediate entry of directory `dir`. */
  predicate ChildOf(p: Path, dir: Path) {
    |p| == |dir| + 1 && p[..|dir|] == dir
  }

  /** `p` is `root` or lies beneath it. */
  predicate Under(p: Path, root: Path) {
    |root| <= |p| && p[..|root|] == root
  }

  /** Nothing lies beneath `p` unless `p` itself exists, as in any real
      filesystem. */
  predicate NoOrphansBeneath(fs: Fs, p: Path) {
    p in fs || forall q :: q in fs ==> !Under(q, p)
  }

  /** The full paths of the listed `names` of `dir` that exist, in listing order. */
  function EnumerateNames(fs: Fs, dir: Path, names: seq<string>): (r: seq<Path>)
    ensures |r| <= |names|
    ensures forall i :: 0 <= i < |r| ==> r[i] in fs && ChildOf(r[i], dir) && FileName(r[i]) in names
    ensures forall name :: name in names && dir + [name] in fs ==> dir + [name] in r
  {
    if names == [] then []
    else
      var p := dir + [names[0]];
      assert p[..|dir|] == dir;
      (if p in fs then [p] else []) + EnumerateNames(fs, dir, names[1..])
  }

  /** DirectoryInfo.EnumerateFileSystemInfos: the immediate entries of an
      existing directory as full paths, in the order the directory lists them. */
  function Enumerate(fs: Fs, dir: Path): seq<Path>
    requires DirExists(fs, Some(dir))
  {
    EnumerateNames(fs, dir, fs[dir].listing)
  }

  /** Directory.Delete(root, recursive: true). */
  function DeleteTree(fs: Fs, root: Path): (r: Fs)
    ensures forall p :: p in r <==> p in fs && !Under(p, root)
    ensures forall p :: p in r ==> r[p] == fs[p]
  {
    map p | p in fs && !Under(p, root) :: fs[p]
  }

  /** The contents of a zip archive: the time its extraction directory is
      created, the names at its top level in extraction order, and its members
      keyed by their path relative to the extraction directory. */
  datatype Archive = Archive(created: Time, topLevel: seq<string>, members: map<Path, Entry>)

  /** ZipFile.ExtractToDirectory(archive, target): creates `target` and writes
      every member beneath it. */
  function Extract(fs: Fs, archive: Archive, target: Path): (r: Fs)
    ensures target in r && r[target] == Dir(archive.created, archive.topLevel)
    ensures forall rel :: rel in archive.members && rel != [] ==>
              target + rel in r && r[target + rel] == archive.members[rel]
    ensures forall p :: p in fs && !Under(p, target) ==> p in r && r[p] == fs[p]
    ensures forall p :: p in r ==>
              p in fs || p == target || (Under(p, target) && p[|target|..] in archive.members)
  {
    var keys := set rel | rel in archive.members && rel != [] :: target + rel;
    var placed := map p | p in keys :: archive.members[p[|target|..]];
    fs + placed + map[target := Dir(archive.created, archive.topLevel)]
  }

  /** Extracting into a directory that nothing lies beneath leaves beneath it
      exactly the target and the archive's members. */
  lemma ExtractExact(fs: Fs, archive: Archive, target: Path, p: Path)
    requires forall q :: q in fs ==> !Under(q, target)
    requires Under(p, target)
    ensures var r := Extract(fs, archive, target);
              && (p in r <==> p == target || (p[|target|..] in archive.members && p[|target|..] != []))
              && (p == target ==> r[p] == Dir(archive.created, archive.topLevel))
              && (p != target && p in r ==> r[p] == archive.members[p[|target|..]])
  {
    var rel := p[|target|..];
    assert target + rel == p;
    if p != target {
      assert rel != [];
    }
  }
}

=== FILE: icon_mapper.dfy ===
/** IconMapper.GetIcon: the image a tree node shows, chosen from the node's
    FileSystemInfo. The image service's answer for a file is an input. */
module IconMapper {
  import opened Wrappers
  import opened CaseFold
  import opened FileSystem
  import opened ItemNode

  /** The KnownMonikers the mapper picks from. */
  datatype KnownMoniker = ExtensionIcon | DocumentIcon | FolderOpenedIcon | FolderClosedIcon

  /** An ImageMoniker as the image service returns it; a negative id means
      the service has no image for the file. */
  datatype ImageMoniker = ImageMoniker(guid: int, id: int)

  /** The icon a node shows: a known moniker, or the service's own answer. */
  datatype Icon = Known(moniker: KnownMoniker) | FromService(answer: ImageMoniker)

  /** The index of the last '.' in `s`, if any. */
  function LastDot(s: string): (r: Option<nat>)
    ensures r.Some? ==> r.value < |s| && s[r.value] == '.'
    ensures r.Some? ==> forall j :: r.value < j < |s| ==> s[j] != '.'
    ensures r.None? ==> forall j :: 0 <= j < |s| ==> s[j] != '.'
    decreases |s|
  {
    if s == [] then None
    else if s[|s| - 1] == '.' then Some(|s| - 1)
    else LastDot(s[..|s| - 1])
  }

  /** Path.GetExtension of a file name: from the last '.' to the end, or
      empty when the name has no '.' or ends with one. */
  function Extension(name: string): (r: string)
    ensures r != [] ==> |r| >= 2 && r[0] == '.' && EndsWith(name, r)
    ensures r != [] ==> forall j :: 0 < j < |r| ==> r[j] != '.'
    ensures r == [] <==>
              (|name| > 0 && name[|name| - 1] == '.') || forall j :: 0 <= j < |name| ==> name[j] != '.'
  {
    var dot := LastDot(name);
    if dot.None? || dot.value == |name| - 1 then ""
    else
      assert forall j :: 0 < j < |name| - dot.value ==> name[dot.value..][j] == name[dot.value + j];
      name[dot.value..]
  }

  /** Upper-casing keeps the dot and makes no new one. */
  lemma UpperDot(c: char)
    ensures Upper(c) == '.' <==> c == '.'
  {
  }

  /** A file's extension equals ".vsix" ignoring case exactly when its name
      ends with ".vsix" ignoring case. */
  lemma ExtensionIsVsix(name: string)
    ensures EqualsIgnoreCase(Extension(name), VsixExtension) <==> EndsWithIgnoreCase(name, VsixExtension)
  {
    var ext := Extension(name);
    var fv := Fold(VsixExtension);
    assert fv == ".VSIX";
    if EqualsIgnoreCase(ext, VsixExtension) {
      assert |ext| == 5;
      FoldSuffix(name, |name| - 5);
      assert name[|name| - 5..] == ext;
    }
    if EndsWithIgnoreCase(name, VsixExtension) {
      VsixTailIsExtension(name);
    }
  }

  /** A name ending with ".vsix", ignoring case, has its last dot five
      characters from the end, so its extension is that tail. */
  lemma VsixTailIsExtension(name: string)
    requires EndsWithIgnoreCase(name, VsixExtension)
    ensures |name| >= 5 && Extension(name) == name[|name| - 5..]
  {
    var fv := Fold(VsixExtension);
    assert fv == ".VSIX";
    var k := |name| - 5;
    FoldSuffix(name, k);
    assert Fold(name)[k..] == fv;
    assert Fold(name)[k] == Upper(name[k]) == '.';
    UpperDot(name[k]);
    forall j | k < j < |name| ensures name[j] != '.' {
      assert Fold(name)[j] == fv[j - k] != '.';
      UpperDot(name[j]);
    }
    assert LastDot(name) == Some(k);
  }

  /** GetIcon(info, isOpen): the icon for a node holding `info`, where
      `serviceAnswer` is what the image service returns for the file. */
  function GetIcon(info: Option<Info>, isOpen: bool, serviceAnswer: ImageMoniker): (r: Icon)
    ensures info.None? ==> r == Known(ExtensionIcon)
    ensures info.Some? && info.value.FileInfo? ==>
              if EndsWithIgnoreCase(FileName(info.value.path), VsixExtension) then r == Known(ExtensionIcon)
              else if serviceAnswer.id >= 0 then r == FromService(serviceAnswer)
              else r == Known(DocumentIcon)
    ensures info.Some? && info.value.DirInfo? ==>
              if EndsWithIgnoreCase(FullName(info.value.path), VsixExtension) then r == Known(ExtensionIcon)
              else r == Known(if isOpen then FolderOpenedIcon else FolderClosedIcon)
  {
    match info
    case None => Known(ExtensionIcon)
    case Some(FileInfo(p, _)) =>
      ExtensionIsVsix(FileName(p));
      if EqualsIgnoreCase(Extension(FileName(p)), VsixExtension) then Known(ExtensionIcon)
      else if serviceAnswer.id < 0 then Known(DocumentIcon)
      else FromService(serviceAnswer)
    case Some(DirInfo(p, _)) =>
      if EndsWithIgnoreCase(FullName(p), VsixExtension) then Known(ExtensionIcon)
      else if isOpen then Known(FolderOpenedIcon) else Known(FolderClosedIcon)
  }

  /** Whether the node is expanded matters only for a directory that is not
      an unpacked archive; for every other node the icon is the same. */
  lemma IconIgnoresOpenUnlessFolder(info: Option<Info>, serviceAnswer: ImageMoniker)
    ensures GetIcon(info, true, serviceAnswer) != GetIcon(info, false, serviceAnswer)
        <==> info.Some? && info.value.DirInfo? && !EndsWithIgnoreCase(FullName(info.value.path), VsixExtension)
  {
  }

  /** The image service is consulted only for files that are not archives:
      every other node shows a known moniker whatever the service says. */
  lemma ServiceOnlyForFiles(info: Option<Info>, isOpen: bool, a: ImageMoniker, b: ImageMoniker)
    requires !(info.Some? && info.value.FileInfo? && !EndsWithIgnoreCase(FileName(info.value.path), VsixExtension))
    ensures GetIcon(info, isOpen, a) == GetIcon(info, isOpen, b)
    ensures GetIcon(info, isOpen, a).Known?
  {
  }

  /** A directory whose own name ends with ".vsix", such as the extraction
      directory of an archive, shows the Extension icon. */
  lemma ArchiveDirectoryIcon(p: Path, written: Time, isOpen: bool, serviceAnswer: ImageMoniker)
    requires p != [] && EndsWithIgnoreCase(FileName(p), VsixExtension)
    ensures GetIcon(Some(DirInfo(p, written)), isOpen, serviceAnswer) == Known(ExtensionIcon)
  {
    FullNameEndsWith(p, VsixExtension);
  }
}

=== FILE: item_node.dfy ===
/** The tree node of the archive viewer (VsixItemNode): one directory, file or
    placeholder, rebuilt in place, with lazily materialised and sorted children,
    cascading disposal and a capability table.

    Nodes live in an id-keyed table so that a node keeps its identity across
    rebuilds; every operation is a pure transition of that table. */
module ItemNode {
  import opened Wrappers
  import opened CaseFold
  import opened FileSystem

  type NodeId = nat

  /** The FileSystemInfo a node holds: a DirectoryInfo or a FileInfo, with the
      LastWriteTime it caches. The object reads the time when first asked for
      it and keeps it; every node that shows a tooltip asks in the Rebuild
      that creates the object, so the cached time is the one at creation. */
  datatype Info = DirInfo(path: Path, written: Time) | FileInfo(path: Path, written: Time)

  /** Tooltip content. The date and number formatting is abstracted to the values shown. */
  datatype Tooltip =
    | NotBuilt                                             // "Compile to see content of generated .vsix file"
    | Updated(lastWrite: Time)                             // "Last updated: <time>"
    | UpdatedWithSize(lastWrite: Time, archiveBytes: nat)  // ... followed by "File size: <n> bytes"

  /** The display text of a node rebuilt from a null path. */
  const PlaceholderText: string := ".vsix content"

  /** The properties a node raises PropertyChanged for. */
  datatype Property =
    | TextProperty | IsCutProperty | HasItemsProperty | ToolTipContentProperty
    | ItemsProperty | IsDisposedProperty

  /** One raised PropertyChanged notification. */
  datatype Notice = Notice(node: NodeId, property: Property)

  /** The state of one node; `children` is None until first materialised. */
  datatype Node = Node(
    text: string,
    info: Option<Info>,
    isCut: bool,
    hasItems: bool,
    tooltip: Option<Tooltip>,
    children: Option<seq<NodeId>>)

  /** The fields of a freshly constructed node before its first Rebuild. */
  const Unbuilt: Node := Node("", None, false, false, None, None)

  /** The node table, the ids of disposed nodes, the next unused id, and every
      notification raised so far. */
  datatype Tree = Tree(nodes: map<NodeId, Node>, disposed: set<NodeId>, next: NodeId, log: seq<Notice>)

  /** The IsDisposed getter. */
  predicate IsDisposed(t: Tree, id: NodeId) {
    id in t.disposed
  }

  /** Materialised children of `n` are allocated after `n` and are present. */
  predicate ChildrenAfter(t: Tree, n: NodeId)
    requires n in t.nodes
  {
    t.nodes[n].children.Some? ==>
      forall c :: c in t.nodes[n].children.value ==> n < c < t.next && c in t.nodes
  }

  /** The table invariant: ids below `next`, children after their parent. */
  predicate Valid(t: Tree) {
    && t.disposed <= t.nodes.Keys
    && (forall n :: n in t.nodes ==> n < t.next)
    && (forall n :: n in t.nodes ==> ChildrenAfter(t, n))
  }

  /** Replacing one node keeps the table valid when its children are allocated after it. */
  lemma ValidUpdate(t: Tree, id: NodeId, n: Node)
    requires Valid(t) && id in t.nodes
    requires n.children.Some? ==> forall c :: c in n.children.value ==> id < c < t.next && c in t.nodes
    ensures Valid(t.(nodes := t.nodes[id := n]))
  {
    var t' := t.(nodes := t.nodes[id := n]);
    forall m | m in t'.nodes ensures ChildrenAfter(t', m) {
      assert ChildrenAfter(t, m);
    }
  }

  function Announce(id: NodeId, props: seq<Property>): seq<Notice> {
    seq(|props|, i requires 0 <= i < |props| => Notice(id, props[i]))
  }

  /** Adds a freshly constructed node under the next id. */
  function Allocate(t: Tree, n: Node, notices: seq<Property>): (r: Tree)
    requires Valid(t)
    requires n.children.None?
    ensures Valid(r)
    ensures r.next == t.next + 1 && r.nodes == t.nodes[t.next := n]
    ensures t.next !in t.nodes
    ensures r.log == t.log + Announce(t.next, notices)
  {
    t.(nodes := t.nodes[t.next := n], next := t.next + 1, log := t.log + Announce(t.next, notices))
  }

  // ---------------------------------------------------------------------------
  // Rebuild and tooltip

  /** SetTooltip: the tooltip for `info`, given the archive the node came from. */
  function SetTooltip(info: Option<Info>, vsixFile: Path, fs: Fs): (r: Tooltip)
    ensures r.NotBuilt? <==> info.None?
    ensures r.UpdatedWithSize? <==> info.Some? && vsixFile != [] && FileExists(fs, Some(vsixFile))
    ensures r.UpdatedWithSize? ==> r.archiveBytes == fs[vsixFile].size
    ensures !r.NotBuilt? ==> r.lastWrite == info.value.written
  {
    if info.None? then NotBuilt
    else if vsixFile != [] && FileExists(fs, Some(vsixFile)) then
      UpdatedWithSize(info.value.written, fs[vsixFile].size)
    else Updated(info.value.written)
  }

  /** The node fields after Rebuild(outputPath, vsixPath). */
  function RebuildNode(n: Node, path: Option<Path>, vsixPath: Option<Path>, fs: Fs): (r: Node)
    ensures r.text == if path.Some? then FileName(path.value) else PlaceholderText
    ensures DirExists(fs, path) ==>
              r.info == Some(DirInfo(path.value, LastWriteTime(fs, path.value))) && r.hasItems && !r.isCut
    ensures !DirExists(fs, path) && FileExists(fs, path) ==>
              && r.info == Some(FileInfo(path.value, LastWriteTime(fs, path.value)))
              && r.hasItems == n.hasItems && !r.isCut
    ensures !DirExists(fs, path) && !FileExists(fs, path) ==>
              r.info == n.info && r.hasItems == n.hasItems && r.isCut
    ensures IsNullOrEmpty(vsixPath) ==> r.tooltip == n.tooltip
    ensures !IsNullOrEmpty(vsixPath) ==> r.tooltip == Some(SetTooltip(r.info, vsixPath.value, fs))
    ensures r.children == n.children
  {
    var text := if path.Some? then FileName(path.value) else PlaceholderText;
    var n1 :=
      if DirExists(fs, path) then
        n.(text := text, isCut := false, info := Some(DirInfo(path.value, LastWriteTime(fs, path.value))),
           hasItems := true)
      else if FileExists(fs, path) then
        n.(text := text, isCut := false, info := Some(FileInfo(path.value, LastWriteTime(fs, path.value))))
      else n.(text := text, isCut := true);
    if IsNullOrEmpty(vsixPath) then n1
    else n1.(tooltip := Some(SetTooltip(n1.info, vsixPath.value, fs)))
  }

  /** The notifications Rebuild raises, in order. */
  function RebuildNotices(path: Option<Path>, vsixPath: Option<Path>, fs: Fs): (r: seq<Property>)
    ensures HasItemsProperty in r <==> DirExists(fs, path)
    ensures ToolTipContentProperty in r <==> !IsNullOrEmpty(vsixPath)
    ensures TextProperty in r && IsCutProperty in r
    ensures IsDisposedProperty !in r && ItemsProperty !in r
  {
    (if DirExists(fs, path) then [HasItemsProperty] else [])
    + [TextProperty, IsCutProperty]
    + (if !IsNullOrEmpty(vsixPath) then [ToolTipContentProperty] else [])
  }

  /** Rebuild(outputPath, vsixPath) on node `id`: only that node's fields change,
      its children stay as they were, and a disposed node is rebuilt all the same. */
  function Rebuild(t: Tree, id: NodeId, path: Option<Path>, vsixPath: Option<Path>, fs: Fs): (r: Tree)
    requires id in t.nodes
    ensures Valid(t) ==> Valid(r)
    ensures r.next == t.next && r.disposed == t.disposed && r.nodes.Keys == t.nodes.Keys
    ensures forall n :: n in t.nodes && n != id ==> r.nodes[n] == t.nodes[n]
    ensures r.nodes[id] == RebuildNode(t.nodes[id], path, vsixPath, fs)
    ensures r.log == t.log + Announce(id, RebuildNotices(path, vsixPath, fs))
  {
    t.(nodes := t.nodes[id := RebuildNode(t.nodes[id], path, vsixPath, fs)],
       log := t.log + Announce(id, RebuildNotices(path, vsixPath, fs)))
  }

  /** A rebuild onto a path that no longer exists keeps the node's info, so
      its tooltip reports the time cached when that info was created, not
      what the filesystem holds now. */
  lemma TooltipKeepsCachedTime(n: Node, path: Option<Path>, vsixPath: Option<Path>, fs: Fs)
    requires !DirExists(fs, path) && !FileExists(fs, path)
    requires n.info.Some? && !IsNullOrEmpty(vsixPath)
    ensures var r := RebuildNode(n, path, vsixPath, fs);
              && r.tooltip.Some? && !r.tooltip.value.NotBuilt?
              && r.tooltip.value.lastWrite == n.info.value.written
  {
  }

  /** Rebuilding twice from the same paths over the same filesystem leaves the node as one rebuild did. */
  lemma RebuildNodeIdempotent(n: Node, path: Option<Path>, vsixPath: Option<Path>, fs: Fs)
    ensures RebuildNode(RebuildNode(n, path, vsixPath, fs), path, vsixPath, fs)
         == RebuildNode(n, path, vsixPath, fs)
  {
  }

  /** A node as the constructor `new VsixItemNode(parent, fullName, null)` leaves it. */
  function NewNode(p: Path, fs: Fs): (r: Node)
    ensures r.text == FileName(p) && r.tooltip.None? && r.children.None?
    ensures p in fs ==>
              && !r.isCut && r.info.Some? && r.info.value.path == p
              && (r.info.value.DirInfo? <==> fs[p].Dir?) && (r.hasItems <==> fs[p].Dir?)
  {
    RebuildNode(Unbuilt, Some(p), None, fs)
  }

  // ---------------------------------------------------------------------------
  // Disposal

  /** The IsDisposed setter: raises the notification only when the value changes. */
  function SetIsDisposed(t: Tree, id: NodeId, value: bool): (r: Tree)
    ensures r.nodes == t.nodes && r.next == t.next
    ensures IsDisposed(r, id) == value
    ensures forall n :: n != id ==> (IsDisposed(r, n) <==> IsDisposed(t, n))
    ensures IsDisposed(t, id) != value ==> r.log == t.log + [Notice(id, IsDisposedProperty)]
    ensures IsDisposed(t, id) == value ==> r == t
  {
    if IsDisposed(t, id) == value then t
    else
      t.(disposed := if value then t.disposed + {id} else t.disposed - {id},
         log := t.log + [Notice(id, IsDisposedProperty)])
  }

  /** `n` was live in `t` and is disposed in `r`. */
  ghost predicate NewlyDisposed(t: Tree, r: Tree, n: NodeId) {
    n in r.disposed && n !in t.disposed
  }

  /** From `t` to `r` only disposal happened: the node table is unchanged,
      nodes of the table go from live to disposed and never back, and the log
      grows by exactly one IsDisposed notification per node that became
      disposed. */
  ghost predicate DisposalOnly(t: Tree, r: Tree) {
    && r.nodes == t.nodes && r.next == t.next
    && t.disposed <= r.disposed
    && (forall n :: NewlyDisposed(t, r, n) ==> n in t.nodes)
    && |t.log| <= |r.log| && r.log[..|t.log|] == t.log
    && (forall i :: |t.log| <= i < |r.log| ==>
          r.log[i].property == IsDisposedProperty && NewlyDisposed(t, r, r.log[i].node))
    && (forall i, j :: |t.log| <= i < j < |r.log| ==> r.log[i].node != r.log[j].node)
    && (forall n :: NewlyDisposed(t, r, n) ==>
          exists i :: |t.log| <= i < |r.log| && r.log[i] == Notice(n, IsDisposedProperty))
  }

  lemma DisposalOnlyReflexive(t: Tree)
    ensures DisposalOnly(t, t)
  {
    assert t.log[..|t.log|] == t.log;
  }

  lemma DisposalOnlyTransitive(a: Tree, b: Tree, c: Tree)
    requires DisposalOnly(a, b) && DisposalOnly(b, c)
    ensures DisposalOnly(a, c)
  {
    assert c.log[..|a.log|] == a.log by {
      assert c.log[..|a.log|] == c.log[..|b.log|][..|a.log|];
    }
    forall i | |a.log| <= i < |c.log|
      ensures c.log[i].property == IsDisposedProperty && NewlyDisposed(a, c, c.log[i].node)
    {
      if i < |b.log| {
        assert c.log[i] == c.log[..|b.log|][i] == b.log[i];
      }
    }
    forall i, j | |a.log| <= i < j < |c.log|
      ensures c.log[i].node != c.log[j].node
    {
      if j < |b.log| {
        assert c.log[i] == c.log[..|b.log|][i] == b.log[i];
        assert c.log[j] == c.log[..|b.log|][j] == b.log[j];
      } else if i < |b.log| {
        assert c.log[i] == c.log[..|b.log|][i] == b.log[i];
        assert NewlyDisposed(a, b, b.log[i].node);
        assert NewlyDisposed(b, c, c.log[j].node);
      }
    }
    forall n | NewlyDisposed(a, c, n)
      ensures exists i :: |a.log| <= i < |c.log| && c.log[i] == Notice(n, IsDisposedProperty)
    {
      if n in b.disposed {
        assert NewlyDisposed(a, b, n);
        var i :| |a.log| <= i < |b.log| && b.log[i] == Notice(n, IsDisposedProperty);
        assert c.log[i] == c.log[..|b.log|][i] == b.log[i];
      } else {
        assert NewlyDisposed(b, c, n);
      }
    }
  }

  lemma SetIsDisposedIsDisposal(t: Tree, id: NodeId)
    requires id in t.nodes && !IsDisposed(t, id)
    ensures DisposalOnly(t, SetIsDisposed(t, id, true))
  {
    var r := SetIsDisposed(t, id, true);
    assert r.log[..|t.log|] == t.log;
    assert r.log[|t.log|] == Notice(id, IsDisposedProperty);
  }

  /** The nodes a Dispose of `id` reaches: `id` itself when it is present and
      live, then what each of its materialised children reaches. A disposed
      node is not descended into, so children materialised under a node
      after its disposal stay out of reach. */
  ghost function LiveReach(t: Tree, id: NodeId): (r: set<NodeId>)
    requires Valid(t)
    ensures forall n :: n in r ==> n in t.nodes && !IsDisposed(t, n) && id <= n
    decreases t.next - id, 1
  {
    if id !in t.nodes || IsDisposed(t, id) then {}
    else
      assert ChildrenAfter(t, id);
      match t.nodes[id].children
      case None => {id}
      case Some(cs) => {id} + LiveReachAll(t, cs, id)
  }

  /** What Dispose reaches from each of `cs`, the children of `parent`. */
  ghost function LiveReachAll(t: Tree, cs: seq<NodeId>, parent: NodeId): (r: set<NodeId>)
    requires Valid(t) && parent < t.next
    requires forall c :: c in cs ==> parent < c < t.next
    ensures forall n :: n in r ==> n in t.nodes && !IsDisposed(t, n) && parent < n
    decreases t.next - parent, 0, |cs|
  {
    if cs == [] then {}
    else
      assert cs[0] in cs && forall c :: c in cs[1..] ==> c in cs;
      LiveReach(t, cs[0]) + LiveReachAll(t, cs[1..], parent)
  }

  /** What disposing the materialised children of `id` reaches. */
  ghost function ChildrenReach(t: Tree, id: NodeId): set<NodeId>
    requires Valid(t) && id in t.nodes
  {
    assert ChildrenAfter(t, id);
    match t.nodes[id].children
    case None => {}
    case Some(cs) => LiveReachAll(t, cs, id)
  }

  /** Two tables that agree on every node from `lo` on: same records, same
      disposal state. */
  ghost predicate AgreeFrom(t: Tree, u: Tree, lo: NodeId) {
    && t.next == u.next
    && (forall n: NodeId :: lo <= n ==> (n in t.nodes <==> n in u.nodes))
    && (forall n: NodeId :: lo <= n && n in t.nodes ==> t.nodes[n] == u.nodes[n])
    && (forall n: NodeId :: lo <= n ==> (IsDisposed(t, n) <==> IsDisposed(u, n)))
  }

  /** The reach of `id` depends only on the nodes from `id` on. */
  lemma {:induction false} ReachFrame(t: Tree, u: Tree, lo: NodeId, id: NodeId)
    requires Valid(t) && Valid(u) && lo <= id && AgreeFrom(t, u, lo)
    ensures LiveReach(t, id) == LiveReach(u, id)
    decreases t.next - id, 1
  {
    if id in t.nodes && !IsDisposed(t, id) {
      assert ChildrenAfter(t, id);
      match t.nodes[id].children
      case None =>
      case Some(cs) => ReachAllFrame(t, u, lo, cs, id);
    }
  }

  lemma {:induction false} ReachAllFrame(t: Tree, u: Tree, lo: NodeId, cs: seq<NodeId>, parent: NodeId)
    requires Valid(t) && Valid(u) && AgreeFrom(t, u, lo) && parent < t.next
    requires forall c :: c in cs ==> parent < c < t.next && lo <= c
    ensures LiveReachAll(t, cs, parent) == LiveReachAll(u, cs, parent)
    decreases t.next - parent, 0, |cs|
  {
    if cs != [] {
      assert cs[0] in cs && forall c :: c in cs[1..] ==> c in cs;
      ReachFrame(t, u, lo, cs[0]);
      ReachAllFrame(t, u, lo, cs[1..], parent);
    }
  }

  /** Reach is closed: whatever a reached node reaches is reached too. */
  lemma {:induction false} ReachClosed(t: Tree, id: NodeId, y: NodeId)
    requires Valid(t) && y in LiveReach(t, id)
    ensures LiveReach(t, y) <= LiveReach(t, id)
    decreases t.next - id, 1
  {
    if y != id {
      assert ChildrenAfter(t, id);
      match t.nodes[id].children
      case Some(cs) => ReachAllClosed(t, cs, id, y);
    }
  }

  lemma {:induction false} ReachAllClosed(t: Tree, cs: seq<NodeId>, parent: NodeId, y: NodeId)
    requires Valid(t) && parent < t.next
    requires forall c :: c in cs ==> parent < c < t.next
    requires y in LiveReachAll(t, cs, parent)
    ensures LiveReach(t, y) <= LiveReachAll(t, cs, parent)
    decreases t.next - parent, 0, |cs|
  {
    assert cs[0] in cs && forall c :: c in cs[1..] ==> c in cs;
    if y in LiveReach(t, cs[0]) {
      ReachClosed(t, cs[0], y);
    } else {
      ReachAllClosed(t, cs[1..], parent, y);
    }
  }

  /** Disposing a reach-closed set `s` first adds nothing to what is disposed
      afterwards from any node: the nodes `s` cuts off were in `s` already. */
  lemma {:induction false} ReachExtend(t: Tree, u: Tree, s: set<NodeId>, x: NodeId)
    requires Valid(t) && Valid(u) && u.nodes == t.nodes && u.next == t.next
    requires u.disposed == t.disposed + s
    requires forall y :: y in s ==> LiveReach(t, y) <= s
    ensures u.disposed + LiveReach(u, x) == u.disposed + LiveReach(t, x)
    decreases t.next - x, 1
  {
    if x in t.nodes && !IsDisposed(t, x) && x !in s {
      assert ChildrenAfter(t, x);
      match t.nodes[x].children
      case None =>
      case Some(cs) => ReachAllExtend(t, u, s, cs, x);
    }
  }

  lemma {:induction false} ReachAllExtend(t: Tree, u: Tree, s: set<NodeId>, cs: seq<NodeId>, parent: NodeId)
    requires Valid(t) && Valid(u) && u.nodes == t.nodes && u.next == t.next
    requires u.disposed == t.disposed + s
    requires forall y :: y in s ==> LiveReach(t, y) <= s
    requires parent < t.next && forall c :: c in cs ==> parent < c < t.next
    ensures u.disposed + LiveReachAll(u, cs, parent) == u.disposed + LiveReachAll(t, cs, parent)
    decreases t.next - parent, 0, |cs|
  {
    if cs != [] {
      assert cs[0] in cs && forall c :: c in cs[1..] ==> c in cs;
      ReachExtend(t, u, s, cs[0]);
      ReachAllExtend(t, u, s, cs[1..], parent);
    }
  }

  /** Dispose: a node already disposed is left alone; otherwise it is marked
      disposed first and then every child materialised at that moment is
      disposed in turn. No node allocated before `id` changes state. */
  function Dispose(t: Tree, id: NodeId): (r: Tree)
    requires Valid(t)
    ensures DisposalOnly(t, r)
    ensures forall n: NodeId :: n < id ==> (IsDisposed(r, n) <==> IsDisposed(t, n))
    ensures id in t.nodes ==> IsDisposed(r, id)
    ensures id !in t.nodes || IsDisposed(t, id) ==> r == t
    ensures id in t.nodes && !IsDisposed(t, id) && t.nodes[id].children.Some? ==>
              forall c :: c in t.nodes[id].children.value ==> IsDisposed(r, c)
    ensures r.disposed == t.disposed + LiveReach(t, id)
    ensures id in t.nodes && !IsDisposed(t, id) ==>
              |r.log| > |t.log| && r.log[|t.log|] == Notice(id, IsDisposedProperty)
    decreases t.next - id, 1
  {
    if id !in t.nodes || IsDisposed(t, id) then
      DisposalOnlyReflexive(t);
      t
    else
      var t1 := SetIsDisposed(t, id, true);
      SetIsDisposedIsDisposal(t, id);
      assert ChildrenAfter(t, id);
      match t.nodes[id].children
      case None => t1
      case Some(cs) =>
        var r := DisposeAll(t1, cs, id);
        DisposalOnlyTransitive(t, t1, r);
        ReachAllFrame(t, t1, id + 1, cs, id);
        assert r.log[|t.log|] == r.log[..|t1.log|][|t.log|];
        r
  }

  /** Disposes each of `cs`, the children of `parent`, in order. */
  function DisposeAll(t: Tree, cs: seq<NodeId>, parent: NodeId): (r: Tree)
    requires Valid(t)
    requires parent < t.next
    requires forall c :: c in cs ==> parent < c < t.next
    ensures DisposalOnly(t, r)
    ensures forall n: NodeId :: n <= parent ==> (IsDisposed(r, n) <==> IsDisposed(t, n))
    ensures forall c :: c in cs && c in t.nodes ==> IsDisposed(r, c)
    ensures r.disposed == t.disposed + LiveReachAll(t, cs, parent)
    decreases t.next - parent, 0, |cs|
  {
    if cs == [] then
      DisposalOnlyReflexive(t);
      t
    else
      assert cs[0] in cs;
      var t1 := Dispose(t, cs[0]);
      assert forall c :: c in cs[1..] ==> c in cs;
      var r := DisposeAll(t1, cs[1..], parent);
      DisposalOnlyTransitive(t, t1, r);
      DisposeAllReachStep(t, t1, cs[0], cs[1..], parent);
      assert [cs[0]] + cs[1..] == cs;
      assert forall c :: c in cs ==> c == cs[0] || c in cs[1..];
      r
  }

  /** After the first of `cs` is disposed, disposing the rest reaches what
      disposing all of `cs` would. */
  lemma DisposeAllReachStep(t: Tree, t1: Tree, first: NodeId, rest: seq<NodeId>, parent: NodeId)
    requires Valid(t) && Valid(t1) && t1.nodes == t.nodes && t1.next == t.next
    requires parent < first < t.next && forall c :: c in rest ==> parent < c < t.next
    requires t1.disposed == t.disposed + LiveReach(t, first)
    ensures t1.disposed + LiveReachAll(t1, rest, parent) == t.disposed + LiveReachAll(t, [first] + rest, parent)
  {
    assert ([first] + rest)[1..] == rest;
    forall y | y in LiveReach(t, first) ensures LiveReach(t, y) <= LiveReach(t, first) {
      ReachClosed(t, first, y);
    }
    ReachAllExtend(t, t1, LiveReach(t, first), rest, parent);
  }

  /** A second Dispose changes nothing: no state and no further notification. */
  lemma DisposeIdempotent(t: Tree, id: NodeId)
    requires Valid(t) && id in t.nodes
    ensures Valid(Dispose(t, id))
    ensures Dispose(Dispose(t, id), id) == Dispose(t, id)
  {
  }

  /** The IsDisposed notification fires at most once per node: a Dispose adds
      one notification for each node it takes from live to disposed and none
      for any other node. */
  lemma DisposeNotifiesOnce(t: Tree, id: NodeId, n: NodeId)
    requires Valid(t)
    ensures CountDisposedNotices(Dispose(t, id).log, n)
         == CountDisposedNotices(t.log, n) + (if NewlyDisposed(t, Dispose(t, id), n) then 1 else 0)
  {
    DisposalCounts(t, Dispose(t, id), n);
  }

  lemma DisposalCounts(t: Tree, r: Tree, n: NodeId)
    requires DisposalOnly(t, r)
    ensures CountDisposedNotices(r.log, n)
         == CountDisposedNotices(t.log, n) + (if NewlyDisposed(t, r, n) then 1 else 0)
  {
    var extra := DisposalExtra(t, r);
    CountExtended(t.log, extra, n, NewlyDisposed(t, r, n));
  }

  lemma CountExtended(log: seq<Notice>, extra: seq<Notice>, n: NodeId, isNew: bool)
    requires forall i, j :: 0 <= i < j < |extra| ==> extra[i].node != extra[j].node
    requires isNew ==> exists k :: 0 <= k < |extra| && extra[k] == Notice(n, IsDisposedProperty)
    requires !isNew ==> forall i :: 0 <= i < |extra| ==> extra[i].node != n
    ensures CountDisposedNotices(log + extra, n) == CountDisposedNotices(log, n) + (if isNew then 1 else 0)
  {
    CountAppend(log, extra, n);
    if isNew {
      var k :| 0 <= k < |extra| && extra[k] == Notice(n, IsDisposedProperty);
      CountDistinct(extra, n, k);
    } else {
      CountAbsent(extra, n);
    }
  }

  /** The notifications a disposal step appends, as a sequence of its own. */
  lemma DisposalExtra(t: Tree, r: Tree) returns (extra: seq<Notice>)
    requires DisposalOnly(t, r)
    ensures r.log == t.log + extra
    ensures forall i :: 0 <= i < |extra| ==> NewlyDisposed(t, r, extra[i].node)
    ensures forall i, j :: 0 <= i < j < |extra| ==> extra[i].node != extra[j].node
    ensures forall n :: NewlyDisposed(t, r, n) ==>
              exists k :: 0 <= k < |extra| && extra[k] == Notice(n, IsDisposedProperty)
  {
    extra := r.log[|t.log|..];
    assert r.log == r.log[..|t.log|] + extra;
    forall i | 0 <= i < |extra|
      ensures NewlyDisposed(t, r, extra[i].node)
    {
      assert extra[i] == r.log[|t.log| + i];
    }
    forall i, j | 0 <= i < j < |extra|
      ensures extra[i].node != extra[j].node
    {
      assert extra[i] == r.log[|t.log| + i];
      assert extra[j] == r.log[|t.log| + j];
    }
    forall n | NewlyDisposed(t, r, n)
      ensures exists k :: 0 <= k < |extra| && extra[k] == Notice(n, IsDisposedProperty)
    {
      var i :| |t.log| <= i < |r.log| && r.log[i] == Notice(n, IsDisposedProperty);
      assert extra[i - |t.log|] == r.log[i];
    }
  }

  /** The number of IsDisposed notifications for node `n` in a log. */
  function CountDisposedNotices(log: seq<Notice>, n: NodeId): nat {
    if log == [] then 0
    else (if log[0] == Notice(n, IsDisposedProperty) then 1 else 0) + CountDisposedNotices(log[1..], n)
  }

  lemma {:induction false} CountAppend(a: seq<Notice>, b: seq<Notice>, n: NodeId)
    ensures CountDisposedNotices(a + b, n) == CountDisposedNotices(a, n) + CountDisposedNotices(b, n)
  {
    if a == [] {
      assert a + b == b;
    } else {
      assert (a + b)[0] == a[0];
      assert (a + b)[1..] == a[1..] + b;
      CountAppend(a[1..], b, n);
    }
  }

  lemma {:induction false} CountAbsent(s: seq<Notice>, n: NodeId)
    requires forall i :: 0 <= i < |s| ==> s[i] != Notice(n, IsDisposedProperty)
    ensures CountDisposedNotices(s, n) == 0
  {
    if s != [] {
      assert forall i :: 0 <= i < |s[1..]| ==> s[1..][i] == s[i + 1];
      CountAbsent(s[1..], n);
    }
  }

  lemma {:induction false} CountDistinct(s: seq<Notice>, n: NodeId, k: nat)
    requires k < |s| && s[k] == Notice(n, IsDisposedProperty)
    requires forall i, j :: 0 <= i < j < |s| ==> s[i].node != s[j].node
    ensures CountDisposedNotices(s, n) == 1
  {
    if k == 0 {
      assert forall i :: 0 <= i < |s[1..]| ==> s[1..][i] == s[i + 1];
      CountAbsent(s[1..], n);
    } else {
      assert forall i :: 0 <= i < |s[1..]| ==> s[1..][i] == s[i + 1];
      CountDistinct(s[1..], n, k - 1);
    }
  }

  // ---------------------------------------------------------------------------
  // Sibling order

  predicate IsDirectory(n: Node) {
    n.info.Some? && n.info.value.DirInfo?
  }

  /** The comparison Refresh sorts siblings with: directories before files,
      and within one kind by text, ordinal ignoring case. */
  predicate Precedes(a: Node, b: Node) {
    if IsDirectory(a) == IsDirectory(b) then CompareIgnoreCase(a.text, b.text) <= 0
    else IsDirectory(a)
  }

  lemma PrecedesTotal(a: Node, b: Node)
    ensures Precedes(a, b) || Precedes(b, a)
  {
    CompareOrdinalFlips(Fold(a.text), Fold(b.text));
  }

  lemma PrecedesTransitive(a: Node, b: Node, c: Node)
    requires Precedes(a, b) && Precedes(b, c)
    ensures Precedes(a, c)
  {
    if IsDirectory(a) == IsDirectory(b) && IsDirectory(b) == IsDirectory(c) {
      CompareOrdinalTransitive(Fold(a.text), Fold(b.text), Fold(c.text));
    }
  }

  /** `s` names nodes of `nodes` in Refresh order. */
  predicate SortedBy(nodes: map<NodeId, Node>, s: seq<NodeId>) {
    && (forall i :: 0 <= i < |s| ==> s[i] in nodes)
    && (forall i, j :: 0 <= i < j < |s| ==> Precedes(nodes[s[i]], nodes[s[j]]))
  }

  lemma SortedCons(nodes: map<NodeId, Node>, x: NodeId, s: seq<NodeId>)
    requires x in nodes && SortedBy(nodes, s)
    requires forall y :: y in s ==> Precedes(nodes[x], nodes[y])
    ensures SortedBy(nodes, [x] + s)
  {
    var r := [x] + s;
    forall i, j | 0 <= i < j < |r|
      ensures Precedes(nodes[r[i]], nodes[r[j]])
    {
      if i == 0 {
        assert r[j] == s[j - 1] && r[j] in s;
      } else {
        assert r[i] == s[i - 1] && r[j] == s[j - 1];
      }
    }
  }

  /** Inserts `x` into the sorted `s` at the first place it may go. */
  function InsertChild(nodes: map<NodeId, Node>, x: NodeId, s: seq<NodeId>): (r: seq<NodeId>)
    requires x in nodes && SortedBy(nodes, s)
    ensures multiset(r) == multiset(s) + multiset{x}
    ensures SortedBy(nodes, r)
  {
    if s == [] then [x]
    else if Precedes(nodes[x], nodes[s[0]]) then
      PrecedesAll(nodes, x, s);
      SortedCons(nodes, x, s);
      [x] + s
    else
      SortedTail(nodes, s);
      var rest := InsertChild(nodes, x, s[1..]);
      InsertedBehindHead(nodes, x, s, rest);
      [s[0]] + rest
  }

  /** Keeping the head in front of `x` inserted into the tail gives a sorted
      list holding the old ids plus `x`. */
  lemma InsertedBehindHead(nodes: map<NodeId, Node>, x: NodeId, s: seq<NodeId>, rest: seq<NodeId>)
    requires x in nodes && SortedBy(nodes, s) && s != []
    requires !Precedes(nodes[x], nodes[s[0]])
    requires multiset(rest) == multiset(s[1..]) + multiset{x} && SortedBy(nodes, rest)
    ensures multiset([s[0]] + rest) == multiset(s) + multiset{x}
    ensures SortedBy(nodes, [s[0]] + rest)
  {
    HeadPrecedesInserted(nodes, x, s, rest);
    SortedCons(nodes, s[0], rest);
    assert s == [s[0]] + s[1..];
  }

  /** The tail of a sorted list is sorted. */
  lemma SortedTail(nodes: map<NodeId, Node>, s: seq<NodeId>)
    requires SortedBy(nodes, s) && s != []
    ensures SortedBy(nodes, s[1..])
  {
    assert forall i :: 0 <= i < |s[1..]| ==> s[1..][i] == s[i + 1];
  }

  /** A node that precedes the head of a sorted list precedes all of it. */
  lemma PrecedesAll(nodes: map<NodeId, Node>, x: NodeId, s: seq<NodeId>)
    requires x in nodes && SortedBy(nodes, s) && s != []
    requires Precedes(nodes[x], nodes[s[0]])
    ensures forall y :: y in s ==> Precedes(nodes[x], nodes[y])
  {
    forall y | y in s ensures Precedes(nodes[x], nodes[y]) {
      var k :| 0 <= k < |s| && s[k] == y;
      if k > 0 { PrecedesTransitive(nodes[x], nodes[s[0]], nodes[y]); }
    }
  }

  /** The head of a sorted list precedes the rest with `x` inserted, when `x`
      does not precede the head. */
  lemma HeadPrecedesInserted(nodes: map<NodeId, Node>, x: NodeId, s: seq<NodeId>, rest: seq<NodeId>)
    requires x in nodes && SortedBy(nodes, s) && s != []
    requires !Precedes(nodes[x], nodes[s[0]])
    requires multiset(rest) == multiset(s[1..]) + multiset{x}
    ensures forall y :: y in rest ==> y in nodes && Precedes(nodes[s[0]], nodes[y])
  {
    forall y | y in rest ensures y in nodes && Precedes(nodes[s[0]], nodes[y]) {
      assert y in multiset(rest);
      if y == x {
        PrecedesTotal(nodes[x], nodes[s[0]]);
      } else {
        assert y in multiset(s[1..]);
        var k :| 0 <= k < |s[1..]| && s[1..][k] == y;
        assert s[k + 1] == y;
      }
    }
  }

  /** The order Refresh installs: a permutation of `s` sorted by Precedes.
      List.Sort is not stable; among siblings of one kind whose texts are equal
      ignoring case this is one of the orders it may produce. */
  function SortChildren(nodes: map<NodeId, Node>, s: seq<NodeId>): (r: seq<NodeId>)
    requires forall i :: 0 <= i < |s| ==> s[i] in nodes
    ensures multiset(r) == multiset(s)
    ensures SortedBy(nodes, r)
  {
    if s == [] then []
    else
      assert s == [s[0]] + s[1..];
      InsertChild(nodes, s[0], SortChildren(nodes, s[1..]))
  }

  /** In a sorted sibling list every directory precedes every file, and
      siblings of one kind have non-decreasing text, ordinal ignoring case. */
  lemma SortedSiblings(nodes: map<NodeId, Node>, s: seq<NodeId>, i: nat, j: nat)
    requires SortedBy(nodes, s) && i < j < |s|
    ensures IsDirectory(nodes[s[j]]) ==> IsDirectory(nodes[s[i]])
    ensures IsDirectory(nodes[s[i]]) == IsDirectory(nodes[s[j]]) ==>
              CompareIgnoreCase(nodes[s[i]].text, nodes[s[j]].text) <= 0
  {
  }

  // ---------------------------------------------------------------------------
  // Materialising children

  /** The ids `start`, `start + 1`, ..., `start + k - 1`. */
  function Range(start: nat, k: nat): (r: seq<NodeId>)
    ensures |r| == k
    ensures forall i :: 0 <= i < k ==> r[i] == start + i
  {
    seq(k, i requires 0 <= i < k => start + i)
  }

  /** The notifications raised while constructing one node per entry,
      numbered from `first`. */
  function CreationNotices(first: NodeId, entries: seq<Path>, fs: Fs): (r: seq<Notice>)
    ensures forall i :: 0 <= i < |r| ==>
              r[i].property != IsDisposedProperty && first <= r[i].node < first + |entries|
    decreases |entries|
  {
    if entries == [] then []
    else
      var head := Announce(first, RebuildNotices(Some(entries[0]), None, fs));
      var rest := CreationNotices(first + 1, entries[1..], fs);
      assert forall i :: 0 <= i < |head| ==> head[i].property in RebuildNotices(Some(entries[0]), None, fs);
      assert forall i :: |head| <= i < |head + rest| ==> (head + rest)[i] == rest[i - |head|];
      head + rest
  }

  /** The nodes constructed for `entries`, keyed from `first`. */
  function CreatedNodes(first: NodeId, entries: seq<Path>, fs: Fs): (m: map<NodeId, Node>)
    ensures forall n :: n in m <==> first <= n < first + |entries|
    ensures forall i :: 0 <= i < |entries| ==> m[first + i] == NewNode(entries[i], fs)
    decreases |entries|
  {
    if entries == [] then map[]
    else
      var rest := CreatedNodes(first + 1, entries[1..], fs);
      assert forall i :: 1 <= i < |entries| ==> entries[i] == entries[1..][i - 1];
      rest[first := NewNode(entries[0], fs)]
  }

  /** One new node per entry, allocated in order from `t.next`. */
  function CreateChildren(t: Tree, entries: seq<Path>, fs: Fs): (r: Tree)
    requires forall n :: n in t.nodes ==> n < t.next
    ensures r.next == t.next + |entries| && r.disposed == t.disposed
    ensures forall n :: n in r.nodes <==> n in t.nodes || t.next <= n < r.next
    ensures forall n :: n in t.nodes ==> r.nodes[n] == t.nodes[n]
    ensures forall i :: 0 <= i < |entries| ==>
              t.next + i in r.nodes && r.nodes[t.next + i] == NewNode(entries[i], fs)
    ensures |t.log| <= |r.log| && r.log[..|t.log|] == t.log
    ensures forall i :: |t.log| <= i < |r.log| ==>
              r.log[i].property != IsDisposedProperty && t.next <= r.log[i].node < r.next
  {
    var created := CreatedNodes(t.next, entries, fs);
    t.(nodes := t.nodes + created, next := t.next + |entries|,
       log := t.log + CreationNotices(t.next, entries, fs))
  }

  /** The entries Refresh enumerates for a node holding `info`. */
  function Entries(info: Option<Info>, fs: Fs): seq<Path> {
    if info.Some? && info.value.DirInfo? && DirExists(fs, Some(info.value.path))
    then Enumerate(fs, info.value.path)
    else []
  }

  /** A transition that may leave by an exception: `Faulted` carries the
      state at the point the exception escaped. */
  datatype Effect<T> = Done(tree: Tree, value: T) | Faulted(tree: Tree)

  /** The first half of Refresh: `_children ??= []`, then every child in the
      list is disposed. */
  function DisposeChildren(t: Tree, id: NodeId): (r: Tree)
    requires Valid(t) && id in t.nodes
    ensures Valid(r) && r.next == t.next
    ensures id in r.nodes && r.nodes == t.nodes[id := t.nodes[id].(children := r.nodes[id].children)]
    ensures r.nodes[id].children == Some(t.nodes[id].children.GetOr([]))
    ensures t.disposed <= r.disposed
    ensures forall n: NodeId :: n <= id ==> (IsDisposed(r, n) <==> IsDisposed(t, n))
    ensures forall c :: c in r.nodes[id].children.value ==> IsDisposed(r, c)
    ensures t.nodes[id].children.Some? ==>
              forall c :: c in t.nodes[id].children.value ==> IsDisposed(r, c)
    ensures r.disposed == t.disposed + ChildrenReach(t, id)
    ensures DisposalOnly(t.(nodes := r.nodes), r)
  {
    var node := t.nodes[id];
    var previous := node.children.GetOr([]);
    var t0 := t.(nodes := t.nodes[id := node.(children := Some(previous))]);
    assert ChildrenAfter(t, id);
    ValidUpdate(t, id, node.(children := Some(previous)));
    var r := DisposeAll(t0, previous, id);
    assert ChildrenAfter(t0, id);
    ChildrenReachFrame(t, t0, id);
    DisposalKeepsValid(t0, r);
    r
  }

  /** Disposal alone keeps the table valid. */
  lemma DisposalKeepsValid(t: Tree, r: Tree)
    requires Valid(t) && DisposalOnly(t, r)
    ensures Valid(r)
  {
    assert forall n :: n in r.nodes ==> ChildrenAfter(t, n);
  }

  /** Replacing a null child list by an empty one, or by itself, keeps what
      disposing the children reaches. */
  lemma ChildrenReachFrame(t: Tree, t0: Tree, id: NodeId)
    requires Valid(t) && Valid(t0) && id in t.nodes && t0.next == t.next && t0.disposed == t.disposed
    requires t0.nodes == t.nodes[id := t.nodes[id].(children := Some(t.nodes[id].children.GetOr([])))]
    ensures id in t0.nodes && t0.nodes[id].children.Some?
    ensures forall c :: c in t0.nodes[id].children.value ==> id < c < t.next
    ensures LiveReachAll(t0, t0.nodes[id].children.value, id) == ChildrenReach(t, id)
  {
    assert ChildrenAfter(t, id);
    var cs := t0.nodes[id].children.value;
    assert AgreeFrom(t, t0, id + 1);
    ReachAllFrame(t, t0, id + 1, cs, id);
  }

  /** `cs` are the children installed on `id` for `entries`: one new node per
      entry, allocated in entry order from `first`, arranged in sibling order,
      with HasItems telling whether there are any. */
  ghost predicate Materialised(tree: Tree, id: NodeId, entries: seq<Path>, first: NodeId, cs: seq<NodeId>, fs: Fs) {
    && id in tree.nodes
    && tree.nodes[id].children == Some(cs)
    && tree.nodes[id].hasItems == (|cs| > 0)
    && multiset(cs) == multiset(Range(first, |entries|))
    && (forall i :: 0 <= i < |entries| ==>
          first + i in tree.nodes && tree.nodes[first + i] == NewNode(entries[i], fs))
    && SortedBy(tree.nodes, cs)
  }

  /** The second half of Refresh: one new child per entry, sorted and
      installed as the children of `id`. */
  function InstallChildren(t: Tree, id: NodeId, entries: seq<Path>, fs: Fs): (r: Effect<seq<NodeId>>)
    requires Valid(t) && id in t.nodes
    ensures r.Done? && Valid(r.tree)
    ensures t.nodes.Keys <= r.tree.nodes.Keys && r.tree.disposed == t.disposed
    ensures forall n :: n in t.nodes && n != id ==> r.tree.nodes[n] == t.nodes[n]
    ensures r.tree.nodes[id] == t.nodes[id].(children := Some(r.value), hasItems := |r.value| > 0)
    ensures Materialised(r.tree, id, entries, t.next, r.value, fs)
  {
    var t2 := CreateChildren(t, entries, fs);
    var cs := SortChildren(t2.nodes, Range(t.next, |entries|));
    var t3 := t2.(nodes := t2.nodes[id := t2.nodes[id].(children := Some(cs), hasItems := |cs| > 0)],
                  log := t2.log + Announce(id, [ItemsProperty, HasItemsProperty]));
    InstalledMaterialised(t, t2, t3, id, entries, cs, fs);
    InstalledValid(t, t2, t3, id, entries, fs);
    Done(t3, cs)
  }

  /** Installing appends the creation notices, which name only new nodes and
      are never disposal notices, and then Items and HasItems. */
  lemma InstallChildrenLog(t: Tree, id: NodeId, entries: seq<Path>, fs: Fs)
    requires Valid(t) && id in t.nodes
    ensures var log, log3 := t.log, InstallChildren(t, id, entries, fs).tree.log;
              && |log| + 2 <= |log3| && log3[..|log|] == log
              && (forall i :: |log| <= i < |log3| - 2 ==>
                    log3[i].property != IsDisposedProperty && t.next <= log3[i].node)
              && log3[|log3| - 2..] == Announce(id, [ItemsProperty, HasItemsProperty])
  {
    var t2 := CreateChildren(t, entries, fs);
    InstalledLog(t.log, t2.log, InstallChildren(t, id, entries, fs).tree.log, t.next, id);
  }

  /** The log after installing: the creation notices, then Items and HasItems. */
  lemma InstalledLog(log: seq<Notice>, log2: seq<Notice>, log3: seq<Notice>, first: NodeId, id: NodeId)
    requires |log| <= |log2| && log2[..|log|] == log
    requires forall i :: |log| <= i < |log2| ==> log2[i].property != IsDisposedProperty && first <= log2[i].node
    requires log3 == log2 + Announce(id, [ItemsProperty, HasItemsProperty])
    ensures |log| + 2 <= |log3| && log3[..|log|] == log
    ensures forall i :: |log| <= i < |log3| - 2 ==> log3[i].property != IsDisposedProperty && first <= log3[i].node
    ensures log3[|log3| - 2..] == Announce(id, [ItemsProperty, HasItemsProperty])
  {
    assert log3[..|log2|] == log2;
    assert log3[..|log|] == log2[..|log|];
  }

  lemma InstalledMaterialised(t: Tree, t2: Tree, t3: Tree, id: NodeId, entries: seq<Path>, cs: seq<NodeId>, fs: Fs)
    requires Valid(t) && id in t.nodes
    requires t2 == CreateChildren(t, entries, fs)
    requires cs == SortChildren(t2.nodes, Range(t.next, |entries|))
    requires t3.nodes == t2.nodes[id := t2.nodes[id].(children := Some(cs), hasItems := |cs| > 0)]
    ensures forall c :: c in cs ==> t.next <= c < t2.next
    ensures Materialised(t3, id, entries, t.next, cs, fs)
  {
    RangeMembers(cs, t.next, |entries|);
    SortedByFrame(t2.nodes, t3.nodes, cs);
    NewNodesKept(t, t2, t3, id, entries, fs);
  }

  /** A permutation of a range holds only ids of that range. */
  lemma RangeMembers(cs: seq<NodeId>, first: NodeId, k: nat)
    requires multiset(cs) == multiset(Range(first, k))
    ensures forall c :: c in cs ==> first <= c < first + k
  {
    var ids := Range(first, k);
    forall c | c in cs ensures first <= c < first + k {
      assert c in multiset(ids);
      var i :| 0 <= i < |ids| && ids[i] == c;
    }
  }

  lemma NewNodesKept(t: Tree, t2: Tree, t3: Tree, id: NodeId, entries: seq<Path>, fs: Fs)
    requires Valid(t) && id in t.nodes
    requires t2 == CreateChildren(t, entries, fs)
    requires id in t3.nodes && t3.nodes == t2.nodes[id := t3.nodes[id]]
    ensures forall i :: 0 <= i < |entries| ==>
              t.next + i in t3.nodes && t3.nodes[t.next + i] == NewNode(entries[i], fs)
  {
    forall i | 0 <= i < |entries|
      ensures t.next + i in t3.nodes && t3.nodes[t.next + i] == NewNode(entries[i], fs)
    {
      assert t.next + i != id;
    }
  }

  /** Sortedness depends only on the nodes the list names. */
  lemma SortedByFrame(m: map<NodeId, Node>, m': map<NodeId, Node>, s: seq<NodeId>)
    requires SortedBy(m, s)
    requires forall c :: c in s ==> c in m' && m'[c] == m[c]
    ensures SortedBy(m', s)
  {
    forall i, j | 0 <= i < j < |s|
      ensures Precedes(m'[s[i]], m'[s[j]])
    {
      assert s[i] in s && s[j] in s;
    }
  }

  lemma InstalledValid(t: Tree, t2: Tree, t3: Tree, id: NodeId, entries: seq<Path>, fs: Fs)
    requires Valid(t) && id in t.nodes
    requires t2 == CreateChildren(t, entries, fs)
    requires t3.next == t2.next && t3.disposed == t.disposed && id in t3.nodes
    requires t3.nodes == t2.nodes[id := t3.nodes[id]]
    requires t3.nodes[id].children.Some?
    requires forall c :: c in t3.nodes[id].children.value ==> t.next <= c < t2.next
    ensures Valid(t3)
  {
    forall n | n in t3.nodes ensures n < t3.next && ChildrenAfter(t3, n) {
      if n == id {
      } else if n in t.nodes {
        OldNodeChildrenAfter(t, t3, n);
      } else {
        var i := n - t.next;
        assert t3.nodes[t.next + i] == NewNode(entries[i], fs);
      }
    }
  }

  lemma OldNodeChildrenAfter(t: Tree, t3: Tree, n: NodeId)
    requires Valid(t) && n in t.nodes && n in t3.nodes && t3.nodes[n] == t.nodes[n]
    requires t.next <= t3.next && t.nodes.Keys <= t3.nodes.Keys
    ensures ChildrenAfter(t3, n)
  {
    assert ChildrenAfter(t, n);
  }

  /** Refresh (and RefreshAsync): disposes the previously materialised
      children, creates one child per entry of the node's directory, sorts
      them and installs them as the node's children. Enumerating a directory
      that no longer exists throws, after the old children are disposed. */
  function Refresh(t: Tree, id: NodeId, fs: Fs): (r: Effect<seq<NodeId>>)
    requires Valid(t) && id in t.nodes
    ensures Valid(r.tree)
    ensures id in r.tree.nodes && t.nodes.Keys <= r.tree.nodes.Keys
    ensures forall n :: n in t.nodes && n != id ==> r.tree.nodes[n] == t.nodes[n]
    ensures r.Faulted? <==>
              t.nodes[id].info.Some? && t.nodes[id].info.value.DirInfo?
              && !DirExists(fs, Some(t.nodes[id].info.value.path))
    ensures r.Faulted? ==>
              && r.tree.nodes[id].children == Some(t.nodes[id].children.GetOr([]))
              && r.tree.nodes[id].hasItems == t.nodes[id].hasItems
    ensures r.Done? ==> Materialised(r.tree, id, Entries(t.nodes[id].info, fs), t.next, r.value, fs)
    ensures r.tree.disposed == t.disposed + ChildrenReach(t, id)
    ensures RefreshLogged(t, r, id)
  {
    var node := t.nodes[id];
    var t1 := DisposeChildren(t, id);
    assert forall n :: n in t.nodes && n != id ==> t1.nodes[n] == t.nodes[n];
    if node.info.Some? && node.info.value.DirInfo? && !DirExists(fs, Some(node.info.value.path)) then
      RefreshLogParts(t, t1, Faulted(t1), id);
      Faulted(t1)
    else
      RefreshInstallLog(t, t1, id, Entries(node.info, fs), fs);
      InstallChildren(t1, id, Entries(node.info, fs), fs)
  }

  lemma RefreshInstallLog(t: Tree, t1: Tree, id: NodeId, entries: seq<Path>, fs: Fs)
    requires Valid(t1) && id in t1.nodes
    requires DisposalOnly(t.(nodes := t1.nodes), t1)
    ensures RefreshLogged(t, InstallChildren(t1, id, entries, fs), id)
  {
    InstallChildrenLog(t1, id, entries, fs);
    RefreshLogParts(t, t1, InstallChildren(t1, id, entries, fs), id);
  }

  /** What Refresh does to the log: the old log stays a prefix; a faulted
      refresh has added only disposal notices, one per newly disposed node; a
      completed one ends with the Items and HasItems notices for `id`. */
  ghost predicate RefreshLogged(t: Tree, r: Effect<seq<NodeId>>, id: NodeId) {
    && |t.log| <= |r.tree.log| && r.tree.log[..|t.log|] == t.log
    && (r.Faulted? ==> DisposalOnly(t.(nodes := r.tree.nodes), r.tree))
    && (r.Done? ==>
          |r.tree.log| >= |t.log| + 2
          && r.tree.log[|r.tree.log| - 2..] == Announce(id, [ItemsProperty, HasItemsProperty]))
  }

  /** Refresh's log from its two halves. */
  lemma RefreshLogParts(t: Tree, t1: Tree, r: Effect<seq<NodeId>>, id: NodeId)
    requires DisposalOnly(t.(nodes := t1.nodes), t1)
    requires r.Faulted? ==> r.tree == t1
    requires r.Done? ==>
               && |t1.log| + 2 <= |r.tree.log| && r.tree.log[..|t1.log|] == t1.log
               && r.tree.log[|r.tree.log| - 2..] == Announce(id, [ItemsProperty, HasItemsProperty])
    ensures RefreshLogged(t, r, id)
  {
    if r.Done? {
      assert r.tree.log[..|t.log|] == r.tree.log[..|t1.log|][..|t.log|];
    }
  }

  /** Refresh disposes every previously materialised child together with
      what each of them reaches, and nothing else. */
  lemma RefreshDisposesPrevious(t: Tree, id: NodeId, fs: Fs)
    requires Valid(t) && id in t.nodes
    ensures var r := Refresh(t, id, fs);
              && r.tree.disposed - t.disposed == ChildrenReach(t, id)
              && (forall n: NodeId :: n <= id ==> (IsDisposed(r.tree, n) <==> IsDisposed(t, n)))
              && (t.nodes[id].children.Some? ==>
                    forall c :: c in t.nodes[id].children.value ==> IsDisposed(r.tree, c))
  {
  }

  /** Refresh notifies IsDisposed exactly once for each node it disposes and
      never for any other node: creating and installing the new children
      raises no disposal notification. */
  lemma RefreshNotifiesDisposalOnce(t: Tree, id: NodeId, fs: Fs, n: NodeId)
    requires Valid(t) && id in t.nodes
    ensures var r := Refresh(t, id, fs);
              CountDisposedNotices(r.tree.log, n)
              == CountDisposedNotices(t.log, n) + (if NewlyDisposed(t, r.tree, n) then 1 else 0)
  {
    var t1 := DisposeChildren(t, id);
    DisposalCounts(t.(nodes := t1.nodes), t1, n);
    if Refresh(t, id, fs).Done? {
      InstallKeepsDisposalCount(t1, id, Entries(t.nodes[id].info, fs), fs, n);
    }
  }

  /** Installing new children adds no disposal notification. */
  lemma InstallKeepsDisposalCount(t: Tree, id: NodeId, entries: seq<Path>, fs: Fs, n: NodeId)
    requires Valid(t) && id in t.nodes
    ensures CountDisposedNotices(InstallChildren(t, id, entries, fs).tree.log, n) == CountDisposedNotices(t.log, n)
  {
    InstallChildrenLog(t, id, entries, fs);
    CountAfterInstalling(t.log, InstallChildren(t, id, entries, fs).tree.log, id, n);
  }

  lemma CountAfterInstalling(log: seq<Notice>, log3: seq<Notice>, id: NodeId, n: NodeId)
    requires |log| + 2 <= |log3| && log3[..|log|] == log
    requires forall i :: |log| <= i < |log3| - 2 ==> log3[i].property != IsDisposedProperty
    requires log3[|log3| - 2..] == Announce(id, [ItemsProperty, HasItemsProperty])
    ensures CountDisposedNotices(log3, n) == CountDisposedNotices(log, n)
  {
    var extra := log3[|log|..];
    assert log3 == log + extra;
    forall i | 0 <= i < |extra| ensures extra[i] != Notice(n, IsDisposedProperty) {
      assert extra[i] == log3[|log| + i];
      if |log| + i >= |log3| - 2 {
        assert log3[|log| + i] == log3[|log3| - 2..][|log| + i - (|log3| - 2)];
      }
    }
    CountAppend(log, extra, n);
    CountAbsent(extra, n);
  }

  /** Refresh leaves the node's own display state alone: text, info, cut
      state and tooltip are those it had before. */
  lemma RefreshKeepsDisplay(t: Tree, id: NodeId, fs: Fs)
    requires Valid(t) && id in t.nodes
    ensures var n, n' := t.nodes[id], Refresh(t, id, fs).tree.nodes[id];
              && n'.text == n.text && n'.info == n.info && n'.isCut == n.isCut
              && n'.tooltip == n.tooltip
  {
  }

  /** The Items getter: materialises the children only when they are null. */
  function Items(t: Tree, id: NodeId, fs: Fs): (r: Effect<seq<NodeId>>)
    requires Valid(t) && id in t.nodes
    ensures Valid(r.tree)
    ensures t.nodes[id].children.Some? ==> r == Done(t, t.nodes[id].children.value)
    ensures t.nodes[id].children.None? ==> r == Refresh(t, id, fs)
  {
    if t.nodes[id].children.Some? then Done(t, t.nodes[id].children.value)
    else Refresh(t, id, fs)
  }

  /** Once Items has produced children, reading Items again returns the same
      children and leaves the state untouched, whatever the filesystem now
      holds: there is no re-enumeration until an explicit Refresh. */
  lemma ItemsStable(t: Tree, id: NodeId, fs: Fs, later: Fs)
    requires Valid(t) && id in t.nodes
    requires Items(t, id, fs).Done?
    ensures var r := Items(t, id, fs);
              Items(r.tree, id, later) == Done(r.tree, r.value)
  {
  }

  /** A file or placeholder node materialises no children and reports no items. */
  lemma RefreshOfLeafIsEmpty(t: Tree, id: NodeId, fs: Fs)
    requires Valid(t) && id in t.nodes && !IsDirectory(t.nodes[id])
    ensures Refresh(t, id, fs).Done?
    ensures Refresh(t, id, fs).value == []
    ensures !Refresh(t, id, fs).tree.nodes[id].hasItems
  {
  }

  // ---------------------------------------------------------------------------
  // Capabilities and comparison

  /** The pattern types a host may ask GetPattern for. */
  datatype PatternKind =
    | TreeDisplayItem | BrowsablePattern | InvocationPattern
    | SupportDisposalNotification | RefreshPattern
    | ContextMenuPattern | OtherPattern(name: string)

  /** The pattern types a live node supports. */
  const SupportedPatterns: set<PatternKind> :=
    {TreeDisplayItem, BrowsablePattern, InvocationPattern, SupportDisposalNotification, RefreshPattern}

  /** GetPattern<kind>(): the node itself or null. */
  function GetPattern(t: Tree, id: NodeId, kind: PatternKind): (r: Option<NodeId>)
    requires id in t.nodes
    ensures r.Some? ==> r.value == id
    ensures !IsDisposed(t, id) ==> (r.Some? <==> kind in SupportedPatterns)
    ensures IsDisposed(t, id) ==> (r.Some? <==> kind == SupportDisposalNotification)
  {
    if !IsDisposed(t, id) then
      if kind in SupportedPatterns then Some(id) else None
    else if kind == SupportDisposalNotification then Some(id) else None
  }

  /** Disposal narrows what a node, each of its materialised children and
      every node the disposal reaches answer to the disposal-notification
      pattern alone. */
  lemma DisposeNarrowsPatterns(t: Tree, id: NodeId, kind: PatternKind)
    requires Valid(t) && id in t.nodes && !IsDisposed(t, id)
    ensures var r := Dispose(t, id);
              && (GetPattern(r, id, kind).Some? <==> kind == SupportDisposalNotification)
              && (t.nodes[id].children.Some? ==>
                    forall c :: c in t.nodes[id].children.value ==>
                      (GetPattern(r, c, kind).Some? <==> kind == SupportDisposalNotification))
              && forall n :: n in LiveReach(t, id) ==>
                   (GetPattern(r, n, kind).Some? <==> kind == SupportDisposalNotification)
  {
    var r := Dispose(t, id);
    assert ChildrenAfter(t, id);
  }

  /** CompareTo: orders against another display item by text, ordinal ignoring
      case; anything else (`other` None) compares equal. */
  function CompareTo(n: Node, other: Option<string>): (r: int)
    ensures -1 <= r <= 1
    ensures other.None? ==> r == 0
    ensures other.Some? ==> (r == 0 <==> EqualsIgnoreCase(n.text, other.value))
  {
    if other.Some? then CompareIgnoreCase(n.text, other.value) else 0
  }

  /** CompareTo is antisymmetric between two nodes. */
  lemma CompareToFlips(a: Node, b: Node)
    ensures CompareTo(a, Some(b.text)) == -CompareTo(b, Some(a.text))
  {
    CompareOrdinalFlips(Fold(a.text), Fold(b.text));
  }

  /** CompareTo agrees with the order Refresh gives siblings of one kind. */
  lemma CompareToAgreesWithSiblingOrder(nodes: map<NodeId, Node>, s: seq<NodeId>, i: nat, j: nat)
    requires SortedBy(nodes, s) && i < j < |s|
    requires IsDirectory(nodes[s[i]]) == IsDirectory(nodes[s[j]])
    ensures CompareTo(nodes[s[i]], Some(nodes[s[j]].text)) <= 0
  {
  }
}

=== FILE: root_node.dfy ===
/** VsixRootNode: the collection source attached under a VSIX project. It owns
    one item node, finds the project's packaged archive after a successful
    build, unpacks it into a per-archive cache directory and rebuilds the
    item onto the unpacked contents. The debounced, thread-hopping rebuild is
    modelled as one sequential step. */
module RootNode {
  import opened Wrappers
  import opened CaseFold
  import opened FileSystem
  import opened ItemNode

  /** What the root reads of a DTE project: its name, its full path and the
      OutputPath property of its active configuration. */
  datatype Project = Project(name: string, fullName: Path, outputPath: Path)

  /** A root: the tracked project path, the default label and its one item. */
  datatype Root = Root(projectPath: Path, defaultName: string, item: NodeId)

  /** The vsixPath the item is built with while there is no archive. */
  const RootMarker: Path := ["root"]

  /** The constructor: the default label is the project name plus ".vsix", and
      the item is built from that label with the "root" marker. Nothing else
      in the table changes. */
  function NewRoot(t: Tree, project: Project, fs: Fs): (r: (Root, Tree))
    requires Valid(t)
    ensures var (root, t') := r;
              && root.defaultName == project.name + VsixExtension
              && root.projectPath == project.fullName
              && Valid(t') && root.item !in t.nodes && root.item in t'.nodes
              && t'.nodes == t.nodes[root.item := RebuildNode(Unbuilt, Some([root.defaultName]), Some(RootMarker), fs)]
              && !IsDisposed(t', root.item) && t'.nodes[root.item].children.None?
  {
    var defaultName := project.name + VsixExtension;
    var path := Some([defaultName]);
    var item := RebuildNode(Unbuilt, path, Some(RootMarker), fs);
    var t' := Allocate(t, item, RebuildNotices(path, Some(RootMarker), fs));
    (Root(project.fullName, defaultName, t.next), t')
  }

  /** Before any build the item is the placeholder: cut, without info, and
      its tooltip asks for a build. */
  lemma NewRootPlaceholder(t: Tree, project: Project, fs: Fs)
    requires Valid(t) && [project.name + VsixExtension] !in fs
    ensures var (root, t') := NewRoot(t, project, fs);
              var n := t'.nodes[root.item];
              && n.text == project.name + VsixExtension && n.isCut && n.info.None?
              && n.tooltip == Some(NotBuilt) && !n.hasItems
  {
  }

  /** BuildEvents_OnBuildProjConfigDone: whether a rebuild is requested. It is
      requested exactly for a successful build whose reported project is a
      textual suffix of the tracked project's full name. */
  function OnBuildProjConfigDone(root: Root, project: string, success: bool): (r: bool)
    ensures r <==> success && IsTail(FullName(root.projectPath), project)
  {
    var full := FullName(root.projectPath);
    EndsWithTail(full, project);
    success && EndsWith(full, project)
  }

  /** The filter is a textual suffix test, not a path comparison: a build of
      the project "Foo.csproj" also requests a rebuild of the root tracking
      "C:\MyFoo.csproj". */
  lemma BuildFilterMatchesSuffix()
    ensures OnBuildProjConfigDone(Root(["C:", "MyFoo.csproj"], "MyFoo.vsix", 0), "Foo.csproj", true)
  {
    var p: Path := ["C:", "MyFoo.csproj"];
    assert p[..1] == ["C:"];
    var full := FullName(p);
    assert full == "C:" + [Separator] + "MyFoo.csproj";
    assert 0 <= 5 <= |full| && full[5..] == "Foo.csproj";
  }

  /** A failed build never requests a rebuild. */
  lemma FailedBuildIgnored(root: Root, project: string)
    ensures !OnBuildProjConfigDone(root, project, false)
  {
  }

  /** The first project of the solution whose full name is `projectPath`. */
  function FindProject(projects: seq<Project>, projectPath: Path): (r: Option<Project>)
    ensures r.Some? ==> r.value in projects && r.value.fullName == projectPath
    ensures r.None? ==> forall p :: p in projects ==> p.fullName != projectPath
  {
    if projects == [] then None
    else if projects[0].fullName == projectPath then Some(projects[0])
    else FindProject(projects[1..], projectPath)
  }

  /** The first of `paths` that is a file named *.vsix. */
  function FirstVsix(fs: Fs, paths: seq<Path>): (r: Option<Path>)
    ensures r.Some? ==> exists i :: 0 <= i < |paths| && paths[i] == r.value
    ensures r.Some? ==> FileExists(fs, r) && EndsWithIgnoreCase(FileName(r.value), VsixExtension)
    ensures r.Some? ==> forall i :: 0 <= i < |paths| && paths[i] != r.value && IsVsixFile(fs, paths[i]) ==>
              exists j :: 0 <= j < i && paths[j] == r.value
    ensures r.None? <==> forall i :: 0 <= i < |paths| ==> !IsVsixFile(fs, paths[i])
  {
    if paths == [] then None
    else if IsVsixFile(fs, paths[0]) then Some(paths[0])
    else
      var r := FirstVsix(fs, paths[1..]);
      assert forall i :: 1 <= i < |paths| ==> paths[i] == paths[1..][i - 1];
      r
  }

  /** What Directory.GetFiles(dir, "*.vsix") keeps: existing files whose name
      ends with ".vsix", ignoring case. */
  predicate IsVsixFile(fs: Fs, p: Path) {
    FileExists(fs, Some(p)) && EndsWithIgnoreCase(FileName(p), VsixExtension)
  }

  /** The output directory of a project: its OutputPath under the project's directory. */
  function BinDir(project: Project): Path {
    DirectoryName(project.fullName) + project.outputPath
  }

  /** GetVsixPath: the first top-level *.vsix file of the tracked project's
      output directory, or null when the project is not in the solution, the
      directory is missing, or it holds no archive. */
  function GetVsixPath(projects: seq<Project>, projectPath: Path, fs: Fs): (r: Option<Path>)
    ensures FindProject(projects, projectPath).None? ==> r.None?
    ensures FindProject(projects, projectPath).Some? ==>
              var dir := BinDir(FindProject(projects, projectPath).value);
              && (!DirExists(fs, Some(dir)) ==> r.None?)
              && (DirExists(fs, Some(dir)) ==> r == FirstVsix(fs, Enumerate(fs, dir)))
    ensures r.Some? ==> r.value != [] && IsVsixFile(fs, r.value)
  {
    var project := FindProject(projects, projectPath);
    if project.None? then None
    else
      var dir := BinDir(project.value);
      if !DirExists(fs, Some(dir)) then None
      else
        var r := FirstVsix(fs, Enumerate(fs, dir));
        assert r.Some? ==> r.value in Enumerate(fs, dir);
        r
  }

  /** The archive found is a top-level file of the output directory of the
      first project with the tracked path. */
  lemma GetVsixPathLocation(projects: seq<Project>, projectPath: Path, fs: Fs)
    ensures var r := GetVsixPath(projects, projectPath, fs);
            r.Some? ==>
              var dir := BinDir(FindProject(projects, projectPath).value);
              DirExists(fs, Some(dir)) && ChildOf(r.value, dir)
  {
    var r := GetVsixPath(projects, projectPath, fs);
    if r.Some? {
      var dir := BinDir(FindProject(projects, projectPath).value);
      var es := Enumerate(fs, dir);
      var i :| 0 <= i < |es| && es[i] == r.value;
    }
  }

  /** An archive is found whenever the output directory holds one at its top level. */
  lemma GetVsixPathFindsArchive(projects: seq<Project>, projectPath: Path, fs: Fs, q: Path)
    requires FindProject(projects, projectPath).Some?
    requires DirExists(fs, Some(BinDir(FindProject(projects, projectPath).value)))
    requires q in Enumerate(fs, BinDir(FindProject(projects, projectPath).value)) && IsVsixFile(fs, q)
    ensures GetVsixPath(projects, projectPath, fs).Some?
  {
    var es := Enumerate(fs, BinDir(FindProject(projects, projectPath).value));
    var i :| 0 <= i < |es| && es[i] == q;
  }

  // ---------------------------------------------------------------------------
  // The unpack cache

  /** Where the cache lives: Path.GetTempPath() and the extension's name. */
  datatype CacheRoot = CacheRoot(tempPath: Path, extensionName: string)

  /** How ZipFile.ExtractToDirectory ends: it writes the archive, or fails
      with an IOException, or fails with another exception (a corrupt archive). */
  datatype Extraction = Extracts(archive: Archive) | ExtractIOError | ExtractOtherError

  /** UnpackVsix's outcome and the filesystem it leaves. */
  datatype Unpacked = Unpacked(result: Outcome<Option<Path>>, fs: Fs)

  /** The extraction directory of an archive: temp/extension name/archive file name. */
  function Target(cache: CacheRoot, vsixPath: Path): (r: Path)
    ensures |r| == |cache.tempPath| + 2 && FileName(r) == FileName(vsixPath)
    ensures Under(r, cache.tempPath)
  {
    cache.tempPath + [cache.extensionName, FileName(vsixPath)]
  }

  /** UnpackVsix: a missing archive gives null and touches nothing. Otherwise
      an existing extraction directory is deleted (a failure there escapes, as
      the delete is outside the try), then the archive is extracted into it.
      An IOException from extraction gives null; any other exception escapes.
      ExtractToDirectory opens the archive before it creates the target, so a
      corrupt archive escapes even when a file sits at the target; with a
      readable archive, that file makes extraction fail with an IOException. */
  function UnpackVsix(fs: Fs, vsixPath: Path, cache: CacheRoot, deleteFails: bool, extraction: Extraction)
    : (r: Unpacked)
    ensures !FileExists(fs, Some(vsixPath)) ==> r == Unpacked(Returned(None), fs)
    ensures r.result == Returned(Some(Target(cache, vsixPath))) <==>
              && FileExists(fs, Some(vsixPath))
              && !(DirExists(fs, Some(Target(cache, vsixPath))) && deleteFails)
              && !FileExists(fs, Some(Target(cache, vsixPath)))
              && extraction.Extracts?
    ensures r.result.Returned? && r.result.value.Some? ==> r.result.value.value == Target(cache, vsixPath)
    ensures r.result.Threw? <==>
              FileExists(fs, Some(vsixPath))
              && ((DirExists(fs, Some(Target(cache, vsixPath))) && deleteFails) || extraction.ExtractOtherError?)
    ensures forall p :: !Under(p, Target(cache, vsixPath)) ==>
              (p in r.fs <==> p in fs) && (p in fs ==> r.fs[p] == fs[p])
  {
    var target := Target(cache, vsixPath);
    if !FileExists(fs, Some(vsixPath)) then Unpacked(Returned(None), fs)
    else if DirExists(fs, Some(target)) && deleteFails then Unpacked(Threw, fs)
    else
      var cleared := if DirExists(fs, Some(target)) then DeleteTree(fs, target) else fs;
      match extraction
      case ExtractOtherError => Unpacked(Threw, cleared)
      case ExtractIOError => Unpacked(Returned(None), cleared)
      case Extracts(archive) =>
        if target in cleared then Unpacked(Returned(None), cleared)
        else Unpacked(Returned(Some(target)), Extract(cleared, archive, target))
  }

  /** When the archive exists and no file blocks the extraction directory,
      the unpack succeeds and the directory then holds exactly the archive:
      the directory itself and every member beneath it, and nothing left
      over from an earlier extraction. */
  lemma UnpackIsExact(fs: Fs, vsixPath: Path, cache: CacheRoot, archive: Archive, p: Path)
    requires FileExists(fs, Some(vsixPath)) && !FileExists(fs, Some(Target(cache, vsixPath)))
    requires Under(p, Target(cache, vsixPath))
    requires NoOrphansBeneath(fs, Target(cache, vsixPath))
    ensures var out := UnpackVsix(fs, vsixPath, cache, false, Extracts(archive)).fs;
            var target := Target(cache, vsixPath);
              && (p in out <==> p == target || (p[|target|..] in archive.members && p[|target|..] != []))
              && (p == target ==> out[p] == Dir(archive.created, archive.topLevel))
              && (p != target && p in out ==> out[p] == archive.members[p[|target|..]])
  {
    var target := Target(cache, vsixPath);
    var cleared := if DirExists(fs, Some(target)) then DeleteTree(fs, target) else fs;
    ClearedTarget(fs, target);
    ExtractExact(cleared, archive, target, p);
  }

  /** After the delete step nothing lies beneath the extraction directory,
      when the unpack goes on to extract. */
  lemma ClearedTarget(fs: Fs, target: Path)
    requires target !in fs || fs[target].Dir?
    requires NoOrphansBeneath(fs, target)
    ensures var cleared := if DirExists(fs, Some(target)) then DeleteTree(fs, target) else fs;
            forall q :: q in cleared ==> !Under(q, target)
  {
  }

  /** What a successful unpack leaves does not depend on what the cache held
      before: two filesystems that agree outside the extraction directory
      agree everywhere afterwards. */
  lemma UnpackForgetsPrevious(fs1: Fs, fs2: Fs, vsixPath: Path, cache: CacheRoot, archive: Archive)
    requires FileExists(fs1, Some(vsixPath)) && FileExists(fs2, Some(vsixPath))
    requires NoOrphansBeneath(fs1, Target(cache, vsixPath)) && NoOrphansBeneath(fs2, Target(cache, vsixPath))
    requires forall p :: !Under(p, Target(cache, vsixPath)) ==>
               (p in fs1 <==> p in fs2) && (p in fs1 ==> fs1[p] == fs2[p])
    requires !FileExists(fs1, Some(Target(cache, vsixPath))) && !FileExists(fs2, Some(Target(cache, vsixPath)))
    ensures UnpackVsix(fs1, vsixPath, cache, false, Extracts(archive)).fs
         == UnpackVsix(fs2, vsixPath, cache, false, Extracts(archive)).fs
  {
    var target := Target(cache, vsixPath);
    var out1 := UnpackVsix(fs1, vsixPath, cache, false, Extracts(archive)).fs;
    var out2 := UnpackVsix(fs2, vsixPath, cache, false, Extracts(archive)).fs;
    forall p ensures (p in out1 <==> p in out2) && (p in out1 ==> out1[p] == out2[p]) {
      if Under(p, target) {
        UnpackIsExact(fs1, vsixPath, cache, archive, p);
        UnpackIsExact(fs2, vsixPath, cache, archive, p);
      }
    }
    SameMaps(out1, out2);
  }

  /** Two maps with the same keys and the same values are equal. */
  lemma SameMaps(m1: Fs, m2: Fs)
    requires forall p :: (p in m1 <==> p in m2) && (p in m1 ==> m1[p] == m2[p])
    ensures m1 == m2
  {
  }

  // ---------------------------------------------------------------------------
  // The rebuild pipeline

  /** What the outside world contributes to one rebuild: the solution's
      projects, the cache location, and how deletion and extraction end. */
  datatype Environment =
    Environment(projects: seq<Project>, cache: CacheRoot, deleteFails: bool, extraction: Extraction)

  /** The state after one rebuild: the node table and the filesystem. */
  datatype RootState = RootState(tree: Tree, fs: Fs)

  /** Rebuild, as one sequential step. An archive that unpacks rebuilds the
      item onto the unpacked directory with the archive as its tooltip
      source; an archive that does not unpack leaves the item alone; no
      archive rebuilds the item to its placeholder. The item is never
      disposed and keeps its children. */
  function RebuildRoot(t: Tree, root: Root, fs: Fs, env: Environment): (r: RootState)
    requires root.item in t.nodes
    ensures Valid(t) ==> Valid(r.tree)
    ensures r.tree.nodes.Keys == t.nodes.Keys && r.tree.disposed == t.disposed && r.tree.next == t.next
    ensures forall n :: n in t.nodes && n != root.item ==> r.tree.nodes[n] == t.nodes[n]
    ensures r.tree.nodes[root.item].children == t.nodes[root.item].children
    ensures var vsix := GetVsixPath(env.projects, root.projectPath, fs);
            if vsix.None? then
              && r.fs == fs
              && r.tree.nodes[root.item]
                   == RebuildNode(t.nodes[root.item], Some([root.defaultName]), Some(RootMarker), fs)
            else
              var u := UnpackVsix(fs, vsix.value, env.cache, env.deleteFails, env.extraction);
              && r.fs == u.fs
              && (u.result == Returned(Some(Target(env.cache, vsix.value))) ==>
                    r.tree.nodes[root.item]
                      == RebuildNode(t.nodes[root.item], Some(Target(env.cache, vsix.value)), vsix, u.fs))
              && (u.result != Returned(Some(Target(env.cache, vsix.value))) ==> r.tree == t)
  {
    var vsix := GetVsixPath(env.projects, root.projectPath, fs);
    if !IsNullOrEmpty(vsix) then
      var u := UnpackVsix(fs, vsix.value, env.cache, env.deleteFails, env.extraction);
      if u.result.Returned? && !IsNullOrEmpty(u.result.value) then
        RootState(Rebuild(t, root.item, u.result.value, vsix, u.fs), u.fs)
      else
        RootState(t, u.fs)
    else
      RootState(Rebuild(t, root.item, Some([root.defaultName]), Some(RootMarker), fs), fs)
  }

  /** An existing archive unpacks when nothing blocks the target: the
      result is the target, which now is a directory listing the archive's
      top level, and the archive itself is untouched. */
  lemma UnpackSucceeds(fs: Fs, vsixPath: Path, cache: CacheRoot, archive: Archive)
    requires FileExists(fs, Some(vsixPath))
    requires !FileExists(fs, Some(Target(cache, vsixPath))) && !Under(vsixPath, Target(cache, vsixPath))
    ensures var u := UnpackVsix(fs, vsixPath, cache, false, Extracts(archive));
            var target := Target(cache, vsixPath);
              && u.result == Returned(Some(target))
              && target in u.fs && u.fs[target] == Dir(archive.created, archive.topLevel)
              && vsixPath in u.fs && u.fs[vsixPath] == fs[vsixPath]
  {
  }

  /** After a rebuild that unpacked the archive, the item is a directory node
      that is not cut, keeps its disposal state and is named after the
      archive; its tooltip reports the extraction time and the archive's
      size, and a refresh of the item enumerates exactly the archive's top
      level. An item that was already expanded keeps its old children: Items
      returns them unchanged until an explicit refresh. */
  lemma RebuildShowsArchive(t: Tree, root: Root, fs: Fs, env: Environment, archive: Archive)
    requires Valid(t) && root.item in t.nodes
    requires env.extraction == Extracts(archive) && !env.deleteFails
    requires GetVsixPath(env.projects, root.projectPath, fs).Some?
    requires var vsix := GetVsixPath(env.projects, root.projectPath, fs).value;
             !FileExists(fs, Some(Target(env.cache, vsix))) && !Under(vsix, Target(env.cache, vsix))
    ensures var vsix := GetVsixPath(env.projects, root.projectPath, fs).value;
            var after := RebuildRoot(t, root, fs, env);
            var n := after.tree.nodes[root.item];
              && n.info == Some(DirInfo(Target(env.cache, vsix), archive.created))
              && n.text == FileName(vsix) && !n.isCut && n.hasItems
              && (IsDisposed(after.tree, root.item) <==> IsDisposed(t, root.item))
              && n.tooltip == Some(UpdatedWithSize(archive.created, fs[vsix].size))
              && Entries(n.info, after.fs) == EnumerateNames(after.fs, Target(env.cache, vsix), archive.topLevel)
              && (t.nodes[root.item].children.Some? ==>
                    Items(after.tree, root.item, after.fs) == Done(after.tree, t.nodes[root.item].children.value))
  {
    var vsix := GetVsixPath(env.projects, root.projectPath, fs).value;
    UnpackSucceeds(fs, vsix, env.cache, archive);
  }

  /** With no archive in the output directory, rebuilding twice leaves the
      item as one rebuild did. */
  lemma PlaceholderRebuildIdempotent(t: Tree, root: Root, fs: Fs, env: Environment)
    requires root.item in t.nodes
    requires GetVsixPath(env.projects, root.projectPath, fs).None?
    ensures var once := RebuildRoot(t, root, fs, env);
            RebuildRoot(once.tree, root, once.fs, env).tree.nodes == once.tree.nodes
  {
    var once := RebuildRoot(t, root, fs, env);
    RebuildNodeIdempotent(t.nodes[root.item], Some([root.defaultName]), Some(RootMarker), fs);
  }

  // ---------------------------------------------------------------------------
  // Collection-source surface

  /** Items: always exactly the owned item. */
  function RootItems(root: Root): (r: seq<NodeId>)
    ensures |r| == 1 && root.item in r
  {
    [root.item]
  }

  /** HasItems: the item field is never null, so always true. */
  function RootHasItems(root: Root): (r: bool)
    ensures r == (|RootItems(root)| > 0)
  {
    true
  }

  /** Dispose does nothing. */
  function RootDispose(t: Tree, root: Root): Tree {
    t
  }

  /** A rebuild never replaces the item: Items still lists the same node, and
      it is still in the table with its disposal state unchanged, including
      after the root is disposed. */
  lemma RootKeepsItem(t: Tree, root: Root, fs: Fs, env: Environment)
    requires root.item in t.nodes
    ensures var r := RebuildRoot(t, root, fs, env).tree;
              && RootItems(root) == [root.item] && root.item in r.nodes
              && (IsDisposed(RootDispose(r, root), root.item) <==> IsDisposed(t, root.item))
  {
  }
}

=== FILE: source_provider.dfy ===
/** VsixItemSourceProvider: attaches a VsixRootNode under every VSIX project
    in the solution tree and lets item nodes act as their own collection
    sources. It caches a single root until the solution closes. */
module SourceProvider {
  import opened Wrappers
  import opened FileSystem
  import opened ItemNode
  import opened RootNode

  /** What IsVsixProject reads of a hierarchy item: whether it is a project
      or a solution folder, the project directory property if the hierarchy
      supplies one, whether any of these queries throws, and the DTE project
      behind it. */
  datatype HierarchyItem = HierarchyItem(
    isProject: bool,
    isSolutionFolder: bool,
    projectDir: Option<Path>,
    queryThrows: bool,
    project: Project)

  /** The objects the host asks about. */
  datatype Item = Hierarchy(hierarchy: HierarchyItem) | TreeItem(node: NodeId) | OtherItem

  datatype Relationship = Contains | OtherRelationship(name: string)

  /** What CreateCollectionSource hands back. */
  datatype Source = RootSource(root: Root) | NodeSource(node: NodeId) | NoSource

  /** The provider's one field: the cached root, if any. */
  datatype Provider = Provider(cached: Option<Root>)

  /** The manifest whose presence marks a VSIX project. */
  const ManifestName: string := "source.extension.vsixmanifest"

  /** IsVsixProject: a project that is not a solution folder and whose project
      directory holds the manifest. Any exception while asking gives false. */
  function IsVsixProject(h: HierarchyItem, fs: Fs): (r: bool)
    ensures r <==> !h.queryThrows && h.isProject && !h.isSolutionFolder
                   && h.projectDir.Some? && FileExists(fs, Some(h.projectDir.value + [ManifestName]))
  {
    if h.queryThrows then false
    else if !h.isProject || h.isSolutionFolder then false
    else if h.projectDir.None? then false
    else FileExists(fs, Some(h.projectDir.value + [ManifestName]))
  }

  /** The provider and the node table belong together: the table is valid and
      a cached root's item is in it. */
  predicate Consistent(p: Provider, t: Tree) {
    Valid(t) && (p.cached.Some? ==> p.cached.value.item in t.nodes)
  }

  /** The result of CreateCollectionSource with the state it leaves. */
  datatype Created = Created(provider: Provider, tree: Tree, source: Source)

  /** CreateCollectionSource(item, relationshipName). */
  function CreateCollectionSource(p: Provider, t: Tree, item: Item, rel: Relationship, fs: Fs): (r: Created)
    requires Consistent(p, t)
    ensures Consistent(r.provider, r.tree)
    ensures rel != Contains ==> r == Created(p, t, NoSource)
    ensures rel == Contains && item.TreeItem? ==> r == Created(p, t, NodeSource(item.node))
    ensures rel == Contains && item.OtherItem? ==> r == Created(p, t, NoSource)
    ensures rel == Contains && item.Hierarchy? && !IsVsixProject(item.hierarchy, fs) ==> r == Created(p, t, NoSource)
    ensures rel == Contains && item.Hierarchy? && IsVsixProject(item.hierarchy, fs) && p.cached.Some? ==>
              r == Created(p, t, RootSource(p.cached.value))
    ensures rel == Contains && item.Hierarchy? && IsVsixProject(item.hierarchy, fs) && p.cached.None? ==>
              && r.source.RootSource? && r.provider.cached == Some(r.source.root)
              && r.source.root.projectPath == item.hierarchy.project.fullName
              && r.source.root.item !in t.nodes
              && forall n :: n in t.nodes ==> n in r.tree.nodes && r.tree.nodes[n] == t.nodes[n]
  {
    if rel == Contains then
      match item
      case Hierarchy(h) =>
        if IsVsixProject(h, fs) then
          if p.cached.Some? then Created(p, t, RootSource(p.cached.value))
          else
            var (root, t') := NewRoot(t, h.project, fs);
            Created(Provider(Some(root)), t', RootSource(root))
        else Created(p, t, NoSource)
      case TreeItem(n) => Created(p, t, NodeSource(n))
      case OtherItem => Created(p, t, NoSource)
    else Created(p, t, NoSource)
  }

  /** OnBeforeCloseSolution: disposes the cached root and forgets it. */
  function OnBeforeCloseSolution(p: Provider, t: Tree): (r: (Provider, Tree))
    requires Consistent(p, t)
    ensures r.0.cached.None? && Consistent(r.0, r.1)
    ensures p.cached.Some? ==> r.1 == RootDispose(t, p.cached.value)
    ensures p.cached.None? ==> r.1 == t
  {
    var t' := if p.cached.Some? then RootDispose(t, p.cached.value) else t;
    (Provider(None), t')
  }

  /** GetRelationships(item): one Contains for a VSIX project, nothing otherwise. */
  function GetRelationships(item: Item, fs: Fs): (r: seq<Relationship>)
    ensures r == [Contains] || r == []
    ensures r == [Contains] <==> item.Hierarchy? && IsVsixProject(item.hierarchy, fs)
  {
    if item.Hierarchy? && IsVsixProject(item.hierarchy, fs) then [Contains] else []
  }

  /** The relationships offered and the sources served agree: an item gets a
      source for Contains exactly when it is offered Contains, or is a node. */
  lemma RelationshipsMatchSources(p: Provider, t: Tree, item: Item, fs: Fs)
    requires Consistent(p, t)
    ensures CreateCollectionSource(p, t, item, Contains, fs).source.NoSource?
        <==> GetRelationships(item, fs) == [] && !item.TreeItem?
  {
  }

  /** Once a root is cached, every Contains request for a VSIX project
      returns that same root and changes nothing, until the solution closes. */
  lemma CachedRootIsStable(p: Provider, t: Tree, h: HierarchyItem, fs: Fs)
    requires Consistent(p, t) && IsVsixProject(h, fs)
    ensures var first := CreateCollectionSource(p, t, Hierarchy(h), Contains, fs);
            var again := CreateCollectionSource(first.provider, first.tree, Hierarchy(h), Contains, fs);
              && again == Created(first.provider, first.tree, first.source)
              && first.source.RootSource?
  {
  }

  /** Closing the solution forgets the root: the next Contains request builds
      a new one, whose item is a node that did not exist before the close. */
  lemma CloseThenFreshRoot(p: Provider, t: Tree, h: HierarchyItem, fs: Fs)
    requires Consistent(p, t) && IsVsixProject(h, fs)
    ensures var (p', t') := OnBeforeCloseSolution(p, t);
            var next := CreateCollectionSource(p', t', Hierarchy(h), Contains, fs);
              && next.source.RootSource?
              && next.source.root.item !in t.nodes
              && (p.cached.Some? ==> next.source.root != p.cached.value)
  {
  }

  /** Closing the solution disposes nothing: the root's Dispose is empty, so
      its item and the item's children keep their disposal state. */
  lemma CloseDisposesNothing(p: Provider, t: Tree)
    requires Consistent(p, t)
    ensures forall n :: IsDisposed(OnBeforeCloseSolution(p, t).1, n) <==> IsDisposed(t, n)
  {
  }

  /** As written, the cache holds one root for all projects: after one VSIX
      project's request, a request for a different VSIX project is answered
      with the first project's root. */
  lemma SecondProjectGetsFirstRoot(t: Tree, h1: HierarchyItem, h2: HierarchyItem, fs: Fs)
    requires Valid(t) && IsVsixProject(h1, fs) && IsVsixProject(h2, fs)
    requires h1.project.fullName != h2.project.fullName
    ensures var first := CreateCollectionSource(Provider(None), t, Hierarchy(h1), Contains, fs);
            var second := CreateCollectionSource(first.provider, first.tree, Hierarchy(h2), Contains, fs);
              && second.source == first.source
              && second.source.root.projectPath == h1.project.fullName
              && second.source.root.projectPath != h2.project.fullName
  {
  }

  // ---------------------------------------------------------------------------
  // One root per project

  /** A provider that caches one root per project, keyed by project path. */
  datatype PerProjectProvider = PerProjectProvider(roots: map<Path, Root>)

  predicate PerProjectConsistent(p: PerProjectProvider, t: Tree) {
    && Valid(t)
    && (forall k :: k in p.roots ==> p.roots[k].item in t.nodes && p.roots[k].projectPath == k)
  }

  /** CreateCollectionSource with the cache keyed by project: a VSIX project
      gets the root built for it, built on its first request. */
  function CreateCollectionSourcePerProject(p: PerProjectProvider, t: Tree, item: Item, rel: Relationship, fs: Fs)
    : (r: (PerProjectProvider, Tree, Source))
    requires PerProjectConsistent(p, t)
    ensures PerProjectConsistent(r.0, r.1)
    ensures rel != Contains ==> r == (p, t, NoSource)
    ensures rel == Contains && item.TreeItem? ==> r == (p, t, NodeSource(item.node))
    ensures rel == Contains && item.OtherItem? ==> r == (p, t, NoSource)
    ensures rel == Contains && item.Hierarchy? && !IsVsixProject(item.hierarchy, fs) ==> r == (p, t, NoSource)
    ensures rel == Contains && item.Hierarchy? && IsVsixProject(item.hierarchy, fs) ==>
              && r.2.RootSource?
              && r.2.root.projectPath == item.hierarchy.project.fullName
              && item.hierarchy.project.fullName in r.0.roots
              && r.0.roots[item.hierarchy.project.fullName] == r.2.root
              && (item.hierarchy.project.fullName in p.roots ==>
                    r == (p, t, RootSource(p.roots[item.hierarchy.project.fullName])))
              && forall k :: k in p.roots ==> k in r.0.roots && r.0.roots[k] == p.roots[k]
  {
    if rel == Contains then
      match item
      case Hierarchy(h) =>
        if IsVsixProject(h, fs) then
          var key := h.project.fullName;
          if key in p.roots then (p, t, RootSource(p.roots[key]))
          else
            var (root, t') := NewRoot(t, h.project, fs);
            (PerProjectProvider(p.roots[key := root]), t', RootSource(root))
        else (p, t, NoSource)
      case TreeItem(n) => (p, t, NodeSource(n))
      case OtherItem => (p, t, NoSource)
    else (p, t, NoSource)
  }

  /** With a root per project, two different VSIX projects get different
      roots, each tracking its own project. */
  lemma ProjectsGetOwnRoots(t: Tree, h1: HierarchyItem, h2: HierarchyItem, fs: Fs)
    requires Valid(t) && IsVsixProject(h1, fs) && IsVsixProject(h2, fs)
    requires h1.project.fullName != h2.project.fullName
    ensures var (p1, t1, s1) :=
              CreateCollectionSourcePerProject(PerProjectProvider(map[]), t, Hierarchy(h1), Contains, fs);
            var (p2, t2, s2) := CreateCollectionSourcePerProject(p1, t1, Hierarchy(h2), Contains, fs);
              && s1.RootSource? && s2.RootSource? && s1 != s2
              && s1.root.projectPath == h1.project.fullName
              && s2.root.projectPath == h2.project.fullName
  {
  }
}

=== FILE: wrappers.dfy ===
/** Optional values, standing for the C# code's nullable references, and the
    outcome of a call that may leave by an exception. */
module Wrappers {

  /** A value, or its absence where the C# code uses null. */
  datatype Option<+T> = None | Some(value: T)
  {
    /** The value, or `default` when absent: the C# `??` operator. */
    function GetOr(default: T): T {
      if Some? then value else default
    }
  }

  /** The call returned `value`, or an exception escaped it. */
  datatype Outcome<+T> = Returned(value: T) | Threw
}
